=== FILE: README.md ===
# Napier yield meta-pool, modelled in Dafny

This project models the Python prototype of Napier's yield meta-pool. Traders
swap an underlying asset (for example a stablecoin) against several principal
tokens (PTs). All PTs of the same underlying are held together in an external
Curve v2 pool. The LP token of that external pool is the *metacoin*.

The meta-pool has three parts:

- **Pricing engine (`ModifiedCPSMM_Math`).** It keeps two reserves,
  `[underlying, metacoin]`, and prices them against each other with a
  "decaying" constant-power-sum invariant, `(N·metacoin)^f + underlying^f = const`.
  The exponent `f` moves toward 1 as maturity approaches. `N` is the number of
  internal PTs.
- **Orchestrator (`YieldMetaAMM` / `NapierYieldMetaCurveV2`).** It routes each
  swap:
  - *underlying → PT*: the engine swaps underlying for metacoin, then the
    external pool redeems that metacoin for one PT;
  - *PT → underlying*: the PT is deposited in the external pool and the minted
    metacoin is swapped for underlying in the engine.

  It also adds and removes liquidity in proportion to a number of pool shares.
- **Share ledger (`LpToken`).** A dictionary of balances whose total supply is
  the sum of its values.

Coins are named by address or by position (`_get_coin`, `_get_index`).

## Modules

| file | module | models |
|---|---|---|
| `types.dfy` | `Types` | coin and account identities, the exceptions the code raises (as `Error`), the `Result` wrapper |
| `coin_resolution.dfy` | `CoinResolution` | `MathAMM._get_coin`, `_get_index`, Python's `list.index` |
| `lp_ledger.dfy` | `LpLedger` | `LpToken`: a class whose `holders`/`balances` fields the methods update |
| `decaying_invariant.dfy` | `DecayingInvariant` | `ModifiedCPSMM_Math` (see below) |
| `meta_pool.dfy` | `MetaPool` | `YieldMetaAMM` + `NapierYieldMetaCurveV2` (see below) |

**`DecayingInvariant`** has three parts:

- the pure swap function `Swap` and its pieces;
- the `Engine` class, whose reserves live in an `array<int>`;
- `Engine.SwapExactIn`, a method proved equal to `Swap`.

**`MetaPool`** also has three parts:

- one `…Effect` function per pool operation. It gives the result, the new
  reserves, the transfers and external-pool calls issued, and the change in
  the caller's shares;
- the `YieldMetaPool` class, whose methods are proved to produce exactly those
  effects;
- lemmas stating what each operation promises.

**How the model represents the code:**

- Python floats are exact `real`s. `int(x)` on a float is `Trunc`, which rounds
  toward zero.
- The fractional power `**` is the `pow` field of the curve. Nothing is assumed
  about it.
- The block timestamp is the parameter `now`.
- Token transfers and external-pool calls are appended, in order, to the pool's
  `log`. What the external pool answers is a parameter of the operation: LP
  tokens minted, the coin paid out, its balances and its total supply.
- Exceptions become `Err(...)` results. Python has no rollback, so every state
  change made before the exception stays. The model states that state
  explicitly.

Quirks of the code that the model keeps as written:

- **A refused engine swap does not restore the reserves** (amm.py:66-79). The
  reserves are written before the negative-output and price checks, and
  nothing undoes them (`SwapLateFailureKeepsWrites`).
- **The engine never validates `coin_out`** beyond comparing it with `coin_in`
  (`SwapIgnoresCoinOut`).
- **The literal `3` stays.** `marginal_interest_rate` and `pt_price` use it,
  not the configured `N` (amm.py:106, 109).
- **The initial time to maturity is `g`** (amm.py:29).
- **`removeLiquidityFromShare` burns last.** It sends the underlying, redeems
  from the external pool and lowers both reserves before it burns the caller's
  shares. A caller with too few shares is refused only after all of that
  (`RemoveFromShareShrinksPool`). The metacoin reserve drops by the requested
  inner share.
- **Underlying-in looks up the output coin late.** It resolves the output
  coin's index after the engine has already moved the reserves
  (`UnderlyingInLateCoinCheck`).

## Model

| member | source | states |
|---|---|---|
| `CoinResolution.IndexOf` | scripts/napier-experiments/amm_types.py:13-14 | `list.index`: returns a position that holds the coin, and no earlier position holds it |
| `CoinResolution.ListIndex` | scripts/napier-experiments/yield_metapool.py:181-182 | succeeds exactly when the coin is listed, and then gives its first position; otherwise gives the ValueError (`NotInList`) |
| `CoinResolution.GetCoin` | scripts/napier-experiments/amm_types.py:16-21 | an index resolves exactly when it is in range, to that element (IndexError otherwise); a listed coin resolves to itself, an unlisted one is refused with "Invalid coin" |
| `CoinResolution.GetIndex` | scripts/napier-experiments/amm_types.py:13-14 | succeeds exactly when `_get_coin` does, with the same error otherwise; the position is in range and holds the resolved coin |
| `CoinResolution.GetIndexOfDistinct` | scripts/napier-experiments/amm_types.py:13-21 | with distinct coins, index `i` and coin `coins[i]` both resolve to position `i` |
| `LpLedger.SumOfOtherKey` | scripts/napier-experiments/amm.py:12-16 | changing an unlisted holder's balance leaves `sum(values)` unchanged |
| `LpLedger.SumOfUpdate` | scripts/napier-experiments/amm.py:12-16 | changing one listed holder's balance changes `sum(values)` by exactly the difference |
| `LpLedger.SumOfBounds` | scripts/napier-experiments/amm.py:9-13 | with no negative balance, the total supply is non-negative and bounds every balance |
| `LpLedger.SumOf` | scripts/napier-experiments/amm.py:12-13 | `sum(self.balances.values())`: the balances of the listed holders added up in insertion order |
| `LpLedger.LpToken.constructor` | scripts/napier-experiments/amm.py:7 | an empty ledger: every balance is 0 and so is the supply |
| `LpLedger.LpToken.BalanceOf` | scripts/napier-experiments/amm.py:9-10 | `balances.get(addr, 0)`: 0 for an address with no entry; with no negative balance it lies between 0 and the total supply |
| `LpLedger.LpToken.TotalSupply` | scripts/napier-experiments/amm.py:12-13 | the sum of all balances: 0 for an empty ledger, and non-negative when no balance is negative |
| `LpLedger.LpToken.Mint` | scripts/napier-experiments/amm.py:15-16 | raises one balance by `amount`, inserting the holder if new; the supply rises by `amount` and no other balance changes; keeps the ledger well formed, and keeps it non-negative when the new balance `old balance + amount` is non-negative (a negative `amount` is accepted) |
| `LpLedger.LpToken.Burn` | scripts/napier-experiments/amm.py:18-21 | refused ("Insufficient balance"), with nothing changed, exactly when `amount` exceeds the balance; otherwise lowers that balance and the supply by `amount`; no balance goes negative |
| `LpLedger.EmptySupplyHoldsNothing` | scripts/napier-experiments/amm.py:9-13 | a zero total supply with no negative balance means every holder's balance is 0 |
| `DecayingInvariant.Trunc` | scripts/napier-experiments/amm.py:65 | `int(x)` on a float rounds toward zero: within 1 of `x`, on the same side of 0 |
| `DecayingInvariant.ExactScaledDivision` | scripts/napier-experiments/amm.py:58-65 | scaling a reserve by N and dividing it back gives it exactly |
| `DecayingInvariant.TimeToMaturity` | scripts/napier-experiments/amm.py:85-91 | succeeds exactly while the elapsed time is at most the initial horizon in years, with a non-negative value that, once the clock is at or past the start, is at most the initial horizon; otherwise "Time to maturity is negative" |
| `DecayingInvariant.TimeToMaturityNonIncreasing` | scripts/napier-experiments/amm.py:85-91 | as the clock advances the time to maturity never grows, and once refused it stays refused |
| `DecayingInvariant.TimeToMaturityOneYearSteps` | scripts/napier-experiments/mini_test.py:43-51 | with a one-year horizon, the test's time steps give exactly 1, 0.99, 0.9 and 0, and one second more is refused |
| `DecayingInvariant.FactorUnderlyingIn` | scripts/napier-experiments/amm.py:96-97 | `1 - ttm·g` is defined exactly when the time to maturity is; for `g ≥ 0` it is at most 1; for `g > 0` it equals 1 exactly at maturity |
| `DecayingInvariant.FactorMetaIn` | scripts/napier-experiments/amm.py:93-94 | `1 - ttm/g` fails on an expired clock or on `g = 0` (ZeroDivisionError); for `g > 0` it is at most 1 and equals 1 exactly at maturity |
| `DecayingInvariant.FactorsRiseTowardMaturity` | scripts/napier-experiments/amm.py:93-97 | for `g > 0` both exponents rise monotonically toward 1 as time passes |
| `DecayingInvariant.InverseFactor` | scripts/napier-experiments/amm.py:48 | the guarded inverse is the multiplicative inverse of a non-zero factor and 0 for a zero factor |
| `DecayingInvariant.Candidate` | scripts/napier-experiments/amm.py:44-65 | the pre-write step of a swap: an unknown input coin is "Invalid coin"; success needs a live clock, `N > 0` (and `g ≠ 0` for metacoin in); underlying in sets the new underlying reserve to `r0 + amountIn`, metacoin in sets the new metacoin reserve to `r1 + amountIn` |
| `DecayingInvariant.WriteReserves` | scripts/napier-experiments/amm.py:66-67 | the two writes through `_get_index` store `(newU, newPt)` when the coins differ; when they coincide the second write lands on slot 0 |
| `DecayingInvariant.PtPrice` | scripts/napier-experiments/amm.py:108-109 | defined exactly when the metacoin reserve is non-zero and the clock is live; a zero reserve is a ZeroDivisionError, checked before the clock |
| `DecayingInvariant.MarginalInterestRate` | scripts/napier-experiments/amm.py:103-106 | `3·r1/r0 - 1`: a ZeroDivisionError exactly when `r0 = 0`; at least -1 for non-negative reserves; zero exactly when `r0 = 3·r1`; positive exactly when `3·r1 > r0` |
| `DecayingInvariant.PostChecks` | scripts/napier-experiments/amm.py:76-80 | passes exactly when the output is non-negative and the PT price is defined and in `[0, 1]`, returning the output; a negative output is "Negative amount out"; otherwise the PT price's own error is returned, and a price outside `[0, 1]` is "Invalid price after swap" |
| `DecayingInvariant.Swap` | scripts/napier-experiments/amm.py:36-80 | `swapExactIn` on reserve values: the same-coin refusal, then `Candidate`, then the two writes of `WriteReserves`, then `PostChecks` on the written reserves; the result and the reserves it leaves, refused or not |
| `DecayingInvariant.SwapRejectsBadCoins` | scripts/napier-experiments/amm.py:36-63 | the same coin in and out, or an unknown input coin, is refused with the reserves untouched |
| `DecayingInvariant.SwapEarlyFailureKeepsReserves` | scripts/napier-experiments/amm.py:36-65 | any refusal before the reserves are written leaves both reserves unchanged |
| `DecayingInvariant.SwapUnderlyingInGrowsUnderlying` | scripts/napier-experiments/amm.py:46-67 | underlying in: the underlying reserve becomes exactly `r0 + amountIn`, even if the swap is refused afterwards |
| `DecayingInvariant.SwapMetaInGrowsMetacoin` | scripts/napier-experiments/amm.py:54-67 | metacoin in: the metacoin reserve becomes exactly `r1 + amountIn` |
| `DecayingInvariant.SwapSuccessIsSane` | scripts/napier-experiments/amm.py:76-80 | a successful swap pays a non-negative amount and leaves a defined PT price in `[0, 1]` |
| `DecayingInvariant.TruncShift` | scripts/napier-experiments/amm.py:53-65 | truncating `x` and `a - x` toward zero loses at most one unit of `a`, when the second part truncates to a non-negative amount |
| `DecayingInvariant.CandidateUnderlyingInDust` | scripts/napier-experiments/amm.py:46-65 | underlying in: the new metacoin reserve plus a non-negative output is the old one less at most one unit of truncation dust |
| `DecayingInvariant.SwapPaysReserveDrop` | scripts/napier-experiments/amm.py:44-67 | a successful swap pays out what the output reserve loses: exactly, for metacoin in; up to one unit of truncation dust kept by the pool, for underlying in (with a non-negative metacoin reserve) |
| `DecayingInvariant.SwapLateFailureKeepsWrites` | scripts/napier-experiments/amm.py:64-79 | past the early checks, the reserves are the written ones whether or not the final checks pass (no rollback), and the result is `PostChecks` on those written reserves |
| `DecayingInvariant.SwapIgnoresCoinOut` | scripts/napier-experiments/amm.py:36-80 | the outcome does not depend on which output coin is named, as long as it differs from the input coin |
| `DecayingInvariant.Engine.constructor` | scripts/napier-experiments/amm.py:27-34 | fresh zero reserves; coins `[underlying, PT]`; the start time is the current clock; both `g` and the initial time to maturity are `g` |
| `DecayingInvariant.Engine.GetReserve` | scripts/napier-experiments/amm.py:99-101 | an index gives that reserve, and an out-of-range index gives IndexError (`IndexOutOfRange`); a coin gives its own reserve; an unknown coin is "Invalid coin" |
| `DecayingInvariant.Engine.SwapExactIn` | scripts/napier-experiments/amm.py:36-80 | the array update and the result are exactly those of `Swap` on the old reserves, so every `Swap…` lemma above holds of the method |
| `MetaPool.SwapRoute` | scripts/napier-experiments/yield_metapool.py:36-46 | each branch of the dispatch is taken exactly when its coin conditions hold, in the source's order |
| `MetaPool.OneCoinAmounts` | scripts/napier-experiments/yield_metapool.py:238-240 | an amounts vector of length N, with `amount` at the coin's index and zero everywhere else |
| `MetaPool.Filled` | scripts/napier-experiments/yield_metapool.py:266 | `[x] * n`: a list of length `n` holding `x` everywhere |
| `MetaPool.ProRata` | scripts/napier-experiments/yield_metapool.py:122-125 | `int(share/total · reserve)` equals the integer quotient `share·reserve / total` for non-negative inputs |
| `MetaPool.ExtAmounts` | scripts/napier-experiments/yield_metapool.py:246-250 | a ZeroDivisionError exactly when the external supply is 0 and there is a coin; otherwise one amount per external balance, which is `balance·inner / supply` when `inner ≥ 0`, the balance is non-negative and `supply > 0` |
| `MetaPool.Pulls` | scripts/napier-experiments/yield_metapool.py:252-257 | one `transferFrom` per internal coin, in list order, each with that coin's amount |
| `MetaPool.ExtReserve` | scripts/napier-experiments/yield_metapool.py:278-281 | an index reads that external balance (refused out of range); a coin must be internal and reads the balance at its position; with distinct coins each coin reads its own balance |
| `MetaPool.ExtReserveOf` | scripts/napier-experiments/yield_metapool.py:279-281 | by coin: defined exactly for internal coins, reading the external balance at the coin's first position; otherwise the index lookup's ValueError (`NotInList`) |
| `MetaPool.UnderlyingInEffect` | scripts/napier-experiments/yield_metapool.py:66-84 | underlying in: refuse a negative amount; pull the underlying; run the engine swap; look up the output coin; redeem the engine's metacoin output for it; result, reserves and calls at each exit |
| `MetaPool.PtInEffect` | scripts/napier-experiments/yield_metapool.py:48-64 | PT in: refuse a negative amount; pull the PT; look it up; deposit it alone; swap the minted metacoin in the engine; send the output to the caller |
| `MetaPool.SwapEffect` | scripts/napier-experiments/yield_metapool.py:27-46 | the dispatch of `swapExactIn`: one error per refused route with nothing changed, otherwise the route's effect |
| `MetaPool.InitializeEffect` | scripts/napier-experiments/yield_metapool.py:86-115 | refused once shares exist, ZeroDivisionError without internal coins; otherwise reserves `(uAmount, minted)`, the seeding calls and `int(uAmount / N)` shares |
| `MetaPool.SeedEvents` | scripts/napier-experiments/yield_metapool.py:92-108 | the seeding calls: the underlying pull, one pull of `ptAmount` per internal coin, then the deposit of those amounts |
| `MetaPool.AddEffect` | scripts/napier-experiments/yield_metapool.py:117-137 | refused without shares outstanding; pulls the pro-rata underlying, then the proportional PTs (or stops at a ZeroDivisionError), deposits them, and grows the reserves and the caller's shares |
| `MetaPool.RemoveEffect` | scripts/napier-experiments/yield_metapool.py:139-158 | refused without shares outstanding; sends the pro-rata underlying, redeems the pro-rata metacoin, lowers both reserves, then burns the share or refuses for lack of balance |
| `MetaPool.SwapRoutesRejectNegativeAmount` | scripts/napier-experiments/yield_metapool.py:48-72 | both swap routes refuse a negative amount with nothing changed and no transfer; zero is accepted |
| `MetaPool.UnderlyingInForwardsEngineOutput` | scripts/napier-experiments/yield_metapool.py:66-84 | with a live clock and an internal output coin, the reserves are the engine swap's, the underlying reserve grows by `amountIn`, and the pool succeeds exactly when the engine swap does; a refused engine swap is passed on after the underlying was pulled; on success the pool redeems exactly the engine's metacoin output for the output coin at its index and returns what the external pool pays; the metacoin reserve it then divides by is non-zero |
| `MetaPool.UnderlyingInLateCoinCheck` | scripts/napier-experiments/yield_metapool.py:73-83 | an output coin that is not internal is always refused, but only after the underlying was pulled and the engine moved the reserves; when the engine swap itself succeeded the refusal is the index lookup's ValueError |
| `MetaPool.PtInFeedsMintedToEngine` | scripts/napier-experiments/yield_metapool.py:48-64 | a PT-in swap deposits the PT in its own slot only; the engine swaps exactly the metacoin minted; the result and the final transfer to the caller are the engine's output; the metacoin reserve grows by the minted amount |
| `MetaPool.SwapDispatch` | scripts/napier-experiments/yield_metapool.py:27-46 | same coin, metacoin in, a non-underlying output for a PT input and an unknown input coin are each refused with their own error and nothing changed; the other two cases are exactly the route operations |
| `MetaPool.InitializeSeedsPool` | scripts/napier-experiments/yield_metapool.py:86-115 | refused once shares exist; otherwise pulls `uAmount` underlying and `uAmount / N` of each PT in order, deposits them, sets the reserves to `(uAmount, minted)` and gives the caller `uAmount / N` shares |
| `MetaPool.AddNeedsLiquidity` | scripts/napier-experiments/yield_metapool.py:117-120 | with no shares outstanding, adding by share is refused ("No liquidity in pool…") and changes nothing |
| `MetaPool.AddFromShareGrowsPool` | scripts/napier-experiments/yield_metapool.py:117-137 | adding `share` first pulls from the caller exactly the underlying the reserve grows by, `share·r0 / supply`; pulls each PT in proportion to its external balance and deposits exactly those amounts with a zero minimum; raises the metacoin reserve by the minted amount; mints exactly `share` |
| `MetaPool.RemoveNeedsLiquidity` | scripts/napier-experiments/yield_metapool.py:139-141 | with no shares outstanding, removal is refused and changes nothing |
| `MetaPool.RemoveFromShareShrinksPool` | scripts/napier-experiments/yield_metapool.py:139-158 | both reserves drop by their pro-rata parts; the caller receives the underlying part, and the external redemption is of exactly the amount the metacoin reserve dropped by, with zero minimums; `share` is burnt when held, otherwise "Insufficient balance" with the reserves already lowered |
| `MetaPool.AddThenRemoveRestoresSupply` | scripts/napier-experiments/mini_test.py:119-143 | adding `share` then removing the same `share` succeeds and leaves the total supply exactly where it was |
| `MetaPool.YieldMetaPool.constructor` | scripts/napier-experiments/yield_metapool.py:195-224 | a pool over `[underlying, metacoin]` with its own fresh engine (N = number of internal coins, zero reserves) and the given share ledger |
| `MetaPool.YieldMetaPool.GetReserve` | scripts/napier-experiments/yield_metapool.py:178-179 | the engine's reserve for the underlying or the metacoin, by index or by coin; unknown coins are refused |
| `MetaPool.YieldMetaPool.RIdx` | scripts/napier-experiments/yield_metapool.py:283-284 | the engine's marginal interest rate, defined exactly when the underlying reserve is non-zero, and zero exactly when `r0 = 3·r1` |
| `MetaPool.YieldMetaPool.InternalCoinIndex` | scripts/napier-experiments/yield_metapool.py:181-182 | succeeds exactly for internal coins, at a position holding the coin |
| `MetaPool.YieldMetaPool.PullInternalCoins` | scripts/napier-experiments/yield_metapool.py:252-257 | the loop appends one `transferFrom` per internal coin, in order |
| `MetaPool.YieldMetaPool.AddExternalLiquidityFromOneCoin` | scripts/napier-experiments/yield_metapool.py:233-243 | pulls the coin, then refuses a non-internal coin (after the transfer), or deposits a one-coin vector and returns the minted amount |
| `MetaPool.YieldMetaPool.RemoveExternalLiquidityOneCoin` | scripts/napier-experiments/yield_metapool.py:270-276 | a non-internal coin is refused with no call; otherwise one redemption at the coin's index, paid to the caller |
| `MetaPool.YieldMetaPool.AddExternalLiquidityFromShare` | scripts/napier-experiments/yield_metapool.py:245-261 | refuses a zero external supply with nothing logged; otherwise pulls the proportional amounts and deposits them, returning the minted amount |
| `MetaPool.YieldMetaPool.RemoveExternalLiquidityFromShare` | scripts/napier-experiments/yield_metapool.py:263-268 | one proportional redemption of `innerShare` with zero minimums, paid to the caller |
| `MetaPool.YieldMetaPool.SwapUnderlyingExactIn` | scripts/napier-experiments/yield_metapool.py:66-84 | result, reserves and issued calls are exactly `UnderlyingInEffect` of the old state |
| `MetaPool.YieldMetaPool.SwapPtExactIn` | scripts/napier-experiments/yield_metapool.py:48-64 | result, reserves and issued calls are exactly `PtInEffect` of the old state |
| `MetaPool.YieldMetaPool.SwapExactIn` | scripts/napier-experiments/yield_metapool.py:27-46 | result, reserves and issued calls are exactly `SwapEffect` of the old state |
| `MetaPool.YieldMetaPool.SeedFromCaller` | scripts/napier-experiments/yield_metapool.py:92-108 | the initial underlying pull, the per-PT pulls and the external deposit, in that order |
| `MetaPool.YieldMetaPool.InitializeLiquidity` | scripts/napier-experiments/yield_metapool.py:86-115 | result, reserves, issued calls and the caller's shares are exactly `InitializeEffect` of the old state; other holders are unchanged |
| `MetaPool.YieldMetaPool.AddLiquidityFromShare` | scripts/napier-experiments/yield_metapool.py:117-137 | result, reserves, issued calls, supply and the caller's shares are exactly `AddEffect` of the old state; other holders are unchanged |
| `MetaPool.YieldMetaPool.RemoveLiquidityFromShare` | scripts/napier-experiments/yield_metapool.py:139-158 | result, reserves, issued calls, supply and the caller's shares are exactly `RemoveEffect` of the old state; other holders are unchanged; no balance goes negative |
| `MetaPool.AddThenRemove` | scripts/napier-experiments/mini_test.py:126-143 | on a live pool, adding `share` and then removing it leaves the total supply unchanged |

## Left out

- Negative list indices: `CoinRef.Index` is a natural number. Python would count a negative index from the end of the list.
- Floating-point rounding: Python floats are modelled as exact reals. The test's equalities on the time to maturity hold exactly in the model. The exact equalities stated by `DecayingInvariant.ExactScaledDivision`, `DecayingInvariant.Candidate`, `DecayingInvariant.SwapMetaInGrowsMetacoin`, `DecayingInvariant.SwapPaysReserveDrop`, `MetaPool.ProRata` and `MetaPool.ExtAmounts` belong to this exact-real reading. A double is exact only below 2^53, so on larger reserves Python's `int(x / N)` can differ from the integer quotient.
- The numeric value of the fractional power `**`: it is the uninterpreted `pow` of the curve.
- Failures inside `**`: `0 ** negative`, complex results of a negative base, and the overflow or ValueError of `int()` on inf/nan. `Candidate` therefore succeeds in cases where the source would raise.
- The external Curve v2 pool: its internal math, amounts and reverts. Its answers are parameters, and an external call that reverts is not modelled.
- ERC20 transfers and approvals: transfers are recorded in the log, token balances are not tracked, and a transfer that would fail is not modelled. The constructor's approve loop (yield_metapool.py:226-229) is not modelled.
- `boa.env.prank`, `to_checksum_address` and the `print` statements. The constructor passes the engine the unchecksummed addresses, which is not modelled either.
- Internal coins that appear twice: the source keys them by address in a dict, which drops duplicates. The pool constructor requires distinct internal coins.
- A pool whose underlying coin is its own metacoin: the source does not check this, but the model's pool configuration and constructor require `underlying != metacoin`. With equal coins, the engine's `_get_index` would send both reserve writes to slot 0.
- The redemption amounts returned by the external pool's `remove_liquidity`: the source ignores them.
- The empty stubs: `MathAMM.swapExactIn`, `MathAMM.addLiquidityFromShare`, `ModifiedCPSMM_Math.addLiquidityFromShare` and the virtual hooks of `YieldMetaAMM`.
- Sharing of the class-level ledger: pools built over the same `LpToken` share it, but a pool's invariant does not track changes other pools make.
- `MetaPool.AddThenRemoveRestoresSupply`: proves the supply is restored exactly. It does not prove that the reserves return to within the test's tolerance (mini_test.py:144-148).
- sim.py and helper.py (deployment and simulation scripts) are not part of this model.

=== FILE: coin_resolution.dfy ===
/**
 * Coin resolution shared by the engine and the meta-pool
 * (MathAMM._get_coin and MathAMM._get_index): a reference to a coin is
 * either a position in the coin list or a coin identity.
 */
module CoinResolution {
  import opened Types

  /** Python's dynamic `isinstance(index_like, int)` split, made a tagged union. */
  datatype CoinRef = Index(i: nat) | Id(coin: Coin)

  /** Python's `list.index`: the first position holding `x`. */
  function IndexOf(xs: seq<Coin>, x: Coin): (i: nat)
    requires x in xs
    ensures i < |xs| && xs[i] == x
    ensures forall j :: 0 <= j < i ==> xs[j] != x
  {
    if xs[0] == x then 0 else 1 + IndexOf(xs[1..], x)
  }

  /** `list.index` with its ValueError when the element is missing. */
  function ListIndex(xs: seq<Coin>, x: Coin): (r: Result<nat>)
    ensures r.Ok? <==> x in xs
    ensures r.Ok? ==> r.value < |xs| && xs[r.value] == x
    ensures r.Ok? ==> forall j :: 0 <= j < r.value ==> xs[j] != x
    ensures r.Err? ==> r.error == NotInList
  {
    if x in xs then Ok(IndexOf(xs, x)) else Err(NotInList)
  }

  /** `_get_coin`: an index selects its element, a listed coin is returned as is. */
  function GetCoin(coins: seq<Coin>, ref: CoinRef): (r: Result<Coin>)
    ensures ref.Index? ==> (r.Ok? <==> ref.i < |coins|)
    ensures ref.Index? && ref.i < |coins| ==> r.value == coins[ref.i]
    ensures ref.Index? && ref.i >= |coins| ==> r == Err(IndexOutOfRange)
    ensures ref.Id? && ref.coin in coins ==> r == Ok(ref.coin)
    ensures ref.Id? && ref.coin !in coins ==> r == Err(InvalidCoin)
  {
    match ref
    case Index(i) => if i < |coins| then Ok(coins[i]) else Err(IndexOutOfRange)
    case Id(c) => if c in coins then Ok(c) else Err(InvalidCoin)
  }

  /** `_get_index`: the position of the resolved coin. */
  function GetIndex(coins: seq<Coin>, ref: CoinRef): (r: Result<nat>)
    ensures r.Ok? <==> GetCoin(coins, ref).Ok?
    ensures r.Err? ==> r.error == GetCoin(coins, ref).error
    ensures r.Ok? ==> r.value < |coins| && coins[r.value] == GetCoin(coins, ref).value
  {
    var c :- GetCoin(coins, ref);
    Ok(IndexOf(coins, c))
  }

  /** With distinct coins, index and identity resolve to the same slot. */
  lemma GetIndexOfDistinct(coins: seq<Coin>, i: nat)
    requires Distinct(coins)
    requires i < |coins|
    ensures GetIndex(coins, Index(i)) == Ok(i)
    ensures GetIndex(coins, Id(coins[i])) == Ok(i)
  {
  }
}

=== FILE: decaying_invariant.dfy ===
/**
 * The decaying-invariant engine (ModifiedCPSMM_Math).
 *
 * Two reserves, `[underlying, metacoin]`, are priced against each other on
 * the curve `(N * metacoin)^f + underlying^f = const`, where the exponent
 * `f` moves toward 1 (a linear, constant-sum market) as the pool approaches
 * maturity. The metacoin reserve is stored per coin and scaled by the number
 * N of internal coins for the invariant math.
 *
 * Python floats are approximated by exact reals and `int(...)` on a float by
 * `Trunc` (rounding toward zero). The fractional power `**` is the curve's
 * `pow`, about which nothing is assumed. The wall clock is the parameter `now`.
 *
 * The swap is specified by the function `Swap` on reserve values; the
 * `Engine` class keeps the reserves in a two-element array and its method
 * `SwapExactIn` is proved to follow `Swap`.
 */
module DecayingInvariant {
  import opened Types
  import opened CoinResolution

  /** The year length used to turn elapsed seconds into a fraction of a year. */
  const OneYear: int := 365 * 24 * 60 * 60

  /**
   * The engine's fixed parameters: `coins == [underlying, principal token]`,
   * `n` internal coins, the decay parameter `g`, the time to maturity at
   * `startedAt`, and the real power function.
   */
  datatype Curve = Curve(
    coins: seq<Coin>,
    n: nat,
    g: real,
    initialTtm: real,
    startedAt: int,
    pow: (real, real) -> real)

  /** A swap's candidate new reserves and output, before the checks. */
  datatype Step = Step(newU: int, newPt: int, amountOut: int)

  /** What a swap returns and the reserves it leaves behind, rejected or not. */
  datatype Outcome = Outcome(result: Result<int>, r0: int, r1: int)

  /** Python's `int(x)` on a float: rounds toward zero. */
  function Trunc(x: real): (r: int)
    ensures 0.0 <= x ==> 0 <= r && r as real <= x < r as real + 1.0
    ensures x < 0.0 ==> r <= 0 && r as real - 1.0 < x <= r as real
  {
    if x >= 0.0 then x.Floor else -((-x).Floor)
  }

  /** Scaling by N and dividing back is exact. */
  lemma ExactScaledDivision(k: int, n: nat)
    requires n > 0
    ensures Trunc((k * n) as real / n as real) == k
  {
    assert (k * n) as real == k as real * n as real;
    assert (k * n) as real / n as real == k as real;
  }

  /**
   * `time_to_maturity`: the initial horizon minus the elapsed fraction of a
   * year, refused once negative.
   */
  function TimeToMaturity(c: Curve, now: int): (r: Result<real>)
    ensures r.Ok? <==> (now - c.startedAt) as real <= c.initialTtm * OneYear as real
    ensures r.Ok? ==> 0.0 <= r.value
    ensures r.Ok? && c.startedAt <= now ==> r.value <= c.initialTtm
    ensures r.Err? ==> r.error == NegativeTimeToMaturity
  {
    var ttm := c.initialTtm - (now - c.startedAt) as real / OneYear as real;
    if ttm < 0.0 then Err(NegativeTimeToMaturity) else Ok(ttm)
  }

  /** Time to maturity never grows as the clock advances, and once refused it stays refused. */
  lemma TimeToMaturityNonIncreasing(c: Curve, t1: int, t2: int)
    requires t1 <= t2
    ensures TimeToMaturity(c, t2).Ok? ==> TimeToMaturity(c, t1).Ok?
    ensures TimeToMaturity(c, t2).Ok? ==> TimeToMaturity(c, t1).value >= TimeToMaturity(c, t2).value
  {
  }

  /**
   * With a one-year horizon, the clock steps int(0.01 y), int(0.09 y) and
   * int(0.9 y) give 1, 0.99, 0.9 and 0.
   */
  lemma TimeToMaturityOneYearSteps(c: Curve)
    requires c.initialTtm == 1.0
    ensures TimeToMaturity(c, c.startedAt) == Ok(1.0)
    ensures TimeToMaturity(c, c.startedAt + 315360) == Ok(0.99)
    ensures TimeToMaturity(c, c.startedAt + 315360 + 2838240) == Ok(0.9)
    ensures TimeToMaturity(c, c.startedAt + 315360 + 2838240 + 28382400) == Ok(0.0)
    ensures TimeToMaturity(c, c.startedAt + 315360 + 2838240 + 28382400 + 1).Err?
  {
  }

  /** Whether `now` is exactly the maturity date. */
  ghost predicate AtMaturity(c: Curve, now: int)
  {
    (now - c.startedAt) as real == c.initialTtm * OneYear as real
  }

  /** `_oneSubTimeToMaturityMulG`: the exponent for underlying-in swaps, `1 - ttm * g`. */
  function FactorUnderlyingIn(c: Curve, now: int): (r: Result<real>)
    ensures r.Ok? <==> TimeToMaturity(c, now).Ok?
    ensures r.Err? ==> r.error == NegativeTimeToMaturity
    ensures r.Ok? && 0.0 <= c.g ==> r.value <= 1.0
    ensures r.Ok? && 0.0 < c.g ==> (r.value == 1.0 <==> AtMaturity(c, now))
  {
    var ttm :- TimeToMaturity(c, now);
    Ok(1.0 - ttm * c.g)
  }

  /** `_oneSubTimeToMaturityDivG`: the exponent for metacoin-in swaps, `1 - ttm / g`. */
  function FactorMetaIn(c: Curve, now: int): (r: Result<real>)
    ensures r.Ok? <==> TimeToMaturity(c, now).Ok? && c.g != 0.0
    ensures TimeToMaturity(c, now).Err? ==> r.Err? && r.error == NegativeTimeToMaturity
    ensures TimeToMaturity(c, now).Ok? && c.g == 0.0 ==> r.Err? && r.error == ZeroDivision
    ensures r.Ok? && 0.0 < c.g ==> r.value <= 1.0 && (r.value == 1.0 <==> AtMaturity(c, now))
  {
    var ttm :- TimeToMaturity(c, now);
    if c.g == 0.0 then Err(ZeroDivision) else Ok(1.0 - ttm / c.g)
  }

  /** As the clock advances toward maturity both exponents rise toward 1. */
  lemma FactorsRiseTowardMaturity(c: Curve, t1: int, t2: int)
    requires 0.0 < c.g && t1 <= t2
    requires TimeToMaturity(c, t2).Ok?
    ensures FactorUnderlyingIn(c, t1).value <= FactorUnderlyingIn(c, t2).value
    ensures FactorMetaIn(c, t1).value <= FactorMetaIn(c, t2).value
  {
    TimeToMaturityNonIncreasing(c, t1, t2);
    var a, b := TimeToMaturity(c, t1).value, TimeToMaturity(c, t2).value;
    ScaleMonotone(a, b, c.g);
    assert FactorUnderlyingIn(c, t1).value == 1.0 - a * c.g;
    assert FactorUnderlyingIn(c, t2).value == 1.0 - b * c.g;
  }

  /** Multiplying or dividing by a positive number keeps the order. */
  lemma ScaleMonotone(a: real, b: real, g: real)
    requires b <= a && 0.0 < g
    ensures b * g <= a * g && b / g <= a / g
  {
    assert (a - b) * g >= 0.0;
    assert (a - b) / g >= 0.0;
  }

  /** The zero-guarded inverse exponent `1 / factor`. */
  function InverseFactor(factor: real): (r: real)
    ensures factor != 0.0 ==> r * factor == 1.0
    ensures factor == 0.0 ==> r == 0.0
  {
    if factor != 0.0 then 1.0 / factor else 0.0
  }

  /**
   * The part of `_swapExactIn` before the reserves are written: solve the
   * curve for the output side's new reserve and the amount paid out.
   */
  function Candidate(c: Curve, r0: int, r1: int, coinIn: Coin, amountIn: int, now: int): (s: Result<Step>)
    requires |c.coins| == 2
    ensures s.Ok? ==> c.n > 0 && coinIn in c.coins
    ensures coinIn !in c.coins ==> s == Err(InvalidCoin)
    ensures s.Ok? && coinIn == c.coins[0] ==> s.value.newU == r0 + amountIn
    ensures s.Ok? && coinIn != c.coins[0] ==> s.value.newPt == r1 + amountIn
    ensures coinIn == c.coins[0] ==> (s.Ok? <==> TimeToMaturity(c, now).Ok? && c.n > 0)
    ensures coinIn != c.coins[0] && coinIn == c.coins[1] ==>
              (s.Ok? <==> TimeToMaturity(c, now).Ok? && c.g != 0.0 && c.n > 0)
  {
    var scaled := r1 * c.n;
    if coinIn == c.coins[0] then
      var factor :- FactorUnderlyingIn(c, now);
      var inv := InverseFactor(factor);
      var newU := r0 + amountIn;
      var newScaled := Trunc(c.pow(c.pow(scaled as real, factor) + c.pow(r0 as real, factor)
                                   - c.pow(newU as real, factor), inv));
      if c.n == 0 then Err(ZeroDivision)
      else Ok(Step(newU, Trunc(newScaled as real / c.n as real),
                   Trunc((scaled - newScaled) as real / c.n as real)))
    else if coinIn == c.coins[1] then
      var factor :- FactorMetaIn(c, now);
      var inv := InverseFactor(factor);
      var newScaled := scaled + amountIn * c.n;
      var newU := Trunc(c.pow(c.pow(scaled as real, factor) + c.pow(r0 as real, factor)
                              - c.pow(newScaled as real, factor), inv));
      if c.n == 0 then Err(ZeroDivision)
      else
        assert newScaled == (r1 + amountIn) * c.n;
        ExactScaledDivision(r1 + amountIn, c.n);
        Ok(Step(newU, Trunc(newScaled as real / c.n as real), r0 - newU))
    else
      Err(InvalidCoin)
  }

  /**
   * The two writes `reserves[_get_index(coins[0])] = newU` and
   * `reserves[_get_index(coins[1])] = newPt`, in that order.
   */
  function WriteReserves(coins: seq<Coin>, r0: int, r1: int, newU: int, newPt: int): (w: (int, int))
    requires |coins| == 2
    ensures coins[0] != coins[1] ==> w == (newU, newPt)
    ensures coins[0] == coins[1] ==> w == (newPt, r1)
  {
    var once := [r0, r1][IndexOf(coins, coins[0]) := newU];
    var twice := once[IndexOf(coins, coins[1]) := newPt];
    (twice[0], twice[1])
  }

  /**
   * `pt_price`: `(underlying / (3 * metacoin)) ** time_to_maturity`.
   * The source writes the literal 3 here instead of the configured number of
   * internal coins; the model keeps the 3.
   */
  function PtPrice(c: Curve, r0: int, r1: int, now: int): (r: Result<real>)
    ensures r.Ok? <==> r1 != 0 && TimeToMaturity(c, now).Ok?
    ensures r1 == 0 ==> r == Err(ZeroDivision)
    ensures r1 != 0 && TimeToMaturity(c, now).Err? ==> r == Err(NegativeTimeToMaturity)
  {
    if 3 * r1 == 0 then Err(ZeroDivision)
    else
      var ttm :- TimeToMaturity(c, now);
      Ok(c.pow(r0 as real / (3 * r1) as real, ttm))
  }

  /** A quotient by a positive number exceeds 1 exactly when the numerator exceeds it. */
  lemma QuotientAboveOne(a: real, b: real)
    requires 0.0 < b
    ensures a / b > 1.0 <==> a > b
  {
    var p := a / b - 1.0;
    assert p * b == a - b;
    if p > 0.0 {
      assert p * b > 0.0;
    } else {
      assert p * b <= 0.0;
    }
  }

  /**
   * `marginal_interest_rate`: `3 * metacoin / underlying - 1`, again with the
   * literal 3.
   */
  function MarginalInterestRate(r0: int, r1: int): (r: Result<real>)
    ensures r.Ok? <==> r0 != 0
    ensures r.Err? ==> r.error == ZeroDivision
    ensures r.Ok? && 0 < r0 && 0 <= r1 ==> -1.0 <= r.value
    ensures r.Ok? ==> (r.value == 0.0 <==> r0 == 3 * r1)
    ensures r.Ok? && 0 < r0 ==> (r.value > 0.0 <==> 3 * r1 > r0)
  {
    if r0 == 0 then Err(ZeroDivision)
    else
      var rate := (3 * r1) as real / r0 as real - 1.0;
      QuotientIsOne((3 * r1) as real, r0 as real);
      assert 0 < r0 ==> (rate > 0.0 <==> 3 * r1 > r0) by {
        if 0 < r0 {
          QuotientAboveOne((3 * r1) as real, r0 as real);
        }
      }
      Ok(rate)
  }

  /** A quotient is 1 exactly when numerator and denominator agree. */
  lemma QuotientIsOne(a: real, b: real)
    requires b != 0.0
    ensures a / b == 1.0 <==> a == b
  {
    assert (a / b) * b == a;
  }

  /**
   * The checks after the reserves have been written: a negative output and a
   * principal-token price outside [0, 1] are refused.
   */
  function PostChecks(c: Curve, w0: int, w1: int, amountOut: int, now: int): (r: Result<int>)
    ensures r.Ok? <==>
              && 0 <= amountOut
              && PtPrice(c, w0, w1, now).Ok?
              && 0.0 <= PtPrice(c, w0, w1, now).value <= 1.0
    ensures r.Ok? ==> r.value == amountOut
    ensures amountOut < 0 ==> r == Err(NegativeAmountOut)
    ensures 0 <= amountOut && PtPrice(c, w0, w1, now).Err? ==> r == Err(PtPrice(c, w0, w1, now).error)
    ensures 0 <= amountOut && PtPrice(c, w0, w1, now).Ok? && !(0.0 <= PtPrice(c, w0, w1, now).value <= 1.0) ==>
              r == Err(InvalidPrice)
  {
    if amountOut < 0 then Err(NegativeAmountOut)
    else
      var price :- PtPrice(c, w0, w1, now);
      if price < 0.0 || price > 1.0 then Err(InvalidPrice) else Ok(amountOut)
  }

  /**
   * `swapExactIn` on reserve values `(r0, r1)`: the result and the reserves
   * left behind. `coinOut` is only compared with `coinIn`.
   */
  function Swap(c: Curve, r0: int, r1: int, coinIn: Coin, coinOut: Coin, amountIn: int, now: int): (o: Outcome)
    requires |c.coins| == 2
  {
    if coinIn == coinOut then Outcome(Err(SameCoin), r0, r1)
    else
      match Candidate(c, r0, r1, coinIn, amountIn, now)
      case Err(e) => Outcome(Err(e), r0, r1)
      case Ok(s) =>
        var w := WriteReserves(c.coins, r0, r1, s.newU, s.newPt);
        Outcome(PostChecks(c, w.0, w.1, s.amountOut, now), w.0, w.1)
  }

  /** Same coin and unknown input coin are refused before the reserves are touched. */
  lemma SwapRejectsBadCoins(c: Curve, r0: int, r1: int, coinIn: Coin, coinOut: Coin, amountIn: int, now: int)
    requires |c.coins| == 2
    ensures coinIn == coinOut ==> Swap(c, r0, r1, coinIn, coinOut, amountIn, now) == Outcome(Err(SameCoin), r0, r1)
    ensures coinIn != coinOut && coinIn !in c.coins ==>
              Swap(c, r0, r1, coinIn, coinOut, amountIn, now) == Outcome(Err(InvalidCoin), r0, r1)
  {
  }

  /** Any failure before the write step leaves both reserves as they were. */
  lemma SwapEarlyFailureKeepsReserves(c: Curve, r0: int, r1: int, coinIn: Coin, coinOut: Coin, amountIn: int, now: int)
    requires |c.coins| == 2
    requires coinIn == coinOut || Candidate(c, r0, r1, coinIn, amountIn, now).Err?
    ensures Swap(c, r0, r1, coinIn, coinOut, amountIn, now).result.Err?
    ensures Swap(c, r0, r1, coinIn, coinOut, amountIn, now).r0 == r0
    ensures Swap(c, r0, r1, coinIn, coinOut, amountIn, now).r1 == r1
  {
  }

  /**
   * Underlying in: once past the early checks the underlying reserve becomes
   * exactly `r0 + amountIn`, whether or not the swap is then refused.
   */
  lemma SwapUnderlyingInGrowsUnderlying(c: Curve, r0: int, r1: int, coinOut: Coin, amountIn: int, now: int)
    requires |c.coins| == 2 && c.coins[0] != c.coins[1]
    requires coinOut != c.coins[0]
    requires c.n > 0 && TimeToMaturity(c, now).Ok?
    ensures Swap(c, r0, r1, c.coins[0], coinOut, amountIn, now).r0 == r0 + amountIn
  {
  }

  /**
   * Metacoin in: the metacoin reserve becomes exactly `r1 + amountIn`, since
   * the N scaling is divided back out exactly.
   */
  lemma SwapMetaInGrowsMetacoin(c: Curve, r0: int, r1: int, coinOut: Coin, amountIn: int, now: int)
    requires |c.coins| == 2 && c.coins[0] != c.coins[1]
    requires coinOut != c.coins[1]
    requires c.n > 0 && c.g != 0.0 && TimeToMaturity(c, now).Ok?
    ensures Swap(c, r0, r1, c.coins[1], coinOut, amountIn, now).r1 == r1 + amountIn
  {
  }

  /** A successful swap pays a non-negative amount and leaves the price in [0, 1]. */
  lemma SwapSuccessIsSane(c: Curve, r0: int, r1: int, coinIn: Coin, coinOut: Coin, amountIn: int, now: int)
    requires |c.coins| == 2
    ensures var o := Swap(c, r0, r1, coinIn, coinOut, amountIn, now);
            o.result.Ok? ==>
            && 0 <= o.result.value
            && PtPrice(c, o.r0, o.r1, now).Ok?
            && 0.0 <= PtPrice(c, o.r0, o.r1, now).value <= 1.0
  {
  }

  /**
   * A swap refused by the output or price check keeps the rewritten
   * reserves: there is no rollback.
   */
  lemma SwapLateFailureKeepsWrites(c: Curve, r0: int, r1: int, coinIn: Coin, coinOut: Coin, amountIn: int, now: int)
    requires |c.coins| == 2 && c.coins[0] != c.coins[1]
    requires coinIn != coinOut
    requires Candidate(c, r0, r1, coinIn, amountIn, now).Ok?
    ensures var s := Candidate(c, r0, r1, coinIn, amountIn, now).value;
            var o := Swap(c, r0, r1, coinIn, coinOut, amountIn, now);
            && o.r0 == s.newU && o.r1 == s.newPt
            && o.result == PostChecks(c, o.r0, o.r1, s.amountOut, now)
  {
  }

  /**
   * Truncation toward zero splits `a = x + (a - x)` with at most one unit of
   * dust lost, provided the second part truncates to a non-negative amount.
   */
  lemma TruncShift(a: int, x: real)
    requires 0 <= a && 0 <= Trunc(a as real - x)
    ensures 0 <= (a - Trunc(x)) - Trunc(a as real - x) <= 1
  {
    var t, u := Trunc(x), Trunc(a as real - x);
    if 0.0 <= x {
      if 0.0 <= a as real - x {
        assert (t + u) as real <= a as real < (t + u) as real + 2.0;
      } else {
        assert u == 0 && a as real < x < a as real + 1.0;
        assert t == a;
      }
    } else {
      assert a as real - 1.0 < (t + u) as real < a as real + 1.0;
    }
  }

  /** Taking `k` scaled units from `a` scaled by `n` and scaling back. */
  lemma DivShift(a: int, n: int, k: int)
    requires 0 < n
    ensures (a * n - k) as real / n as real == a as real - k as real / n as real
  {
    assert (a * n) as real == a as real * n as real;
  }

  /**
   * Underlying in: the metacoin reserve loses the amount paid out plus at most
   * one unit of truncation dust, which stays in the pool.
   */
  lemma CandidateUnderlyingInDust(c: Curve, r0: int, r1: int, amountIn: int, now: int)
    requires |c.coins| == 2 && 0 <= r1
    ensures var s := Candidate(c, r0, r1, c.coins[0], amountIn, now);
            s.Ok? && 0 <= s.value.amountOut ==> 0 <= (r1 - s.value.newPt) - s.value.amountOut <= 1
  {
    var s := Candidate(c, r0, r1, c.coins[0], amountIn, now);
    if s.Ok? && 0 <= s.value.amountOut {
      var factor := FactorUnderlyingIn(c, now).value;
      var scaled := r1 * c.n;
      var newScaled := Trunc(c.pow(c.pow(scaled as real, factor) + c.pow(r0 as real, factor)
                                   - c.pow((r0 + amountIn) as real, factor), InverseFactor(factor)));
      var x := newScaled as real / c.n as real;
      assert s.value == Step(r0 + amountIn, Trunc(x), Trunc((scaled - newScaled) as real / c.n as real));
      DivShift(r1, c.n, newScaled);
      TruncShift(r1, x);
    }
  }

  /**
   * A successful swap pays out what the output-side reserve loses: all of it
   * for metacoin in, and all but at most one unit of truncation dust for
   * underlying in.
   */
  lemma SwapPaysReserveDrop(c: Curve, r0: int, r1: int, coinIn: Coin, coinOut: Coin, amountIn: int, now: int)
    requires |c.coins| == 2 && c.coins[0] != c.coins[1] && 0 <= r1
    ensures var o := Swap(c, r0, r1, coinIn, coinOut, amountIn, now);
            o.result.Ok? && coinIn == c.coins[1] ==> o.r0 == r0 - o.result.value
    ensures var o := Swap(c, r0, r1, coinIn, coinOut, amountIn, now);
            o.result.Ok? && coinIn == c.coins[0] ==> 0 <= (r1 - o.r1) - o.result.value <= 1
  {
    CandidateUnderlyingInDust(c, r0, r1, amountIn, now);
  }

  /** The output coin is never checked beyond differing from the input coin. */
  lemma SwapIgnoresCoinOut(c: Curve, r0: int, r1: int, coinIn: Coin, out1: Coin, out2: Coin, amountIn: int, now: int)
    requires |c.coins| == 2
    requires coinIn != out1 && coinIn != out2
    ensures Swap(c, r0, r1, coinIn, out1, amountIn, now) == Swap(c, r0, r1, coinIn, out2, amountIn, now)
  {
  }

  /** The engine object: fixed parameters and the mutable `[underlying, metacoin]` reserves. */
  class Engine {
    const curve: Curve
    const reserves: array<int>

    ghost predicate Valid()
    {
      reserves.Length == 2 && |curve.coins| == 2
    }

    /**
     * The constructor: the clock reading becomes the start time and, as in
     * the source, the initial time to maturity is the decay parameter `g`.
     */
    constructor (underlying: Coin, principalToken: Coin, g: real, nInternal: nat, now: int,
                 pow: (real, real) -> real)
      ensures Valid() && fresh(reserves)
      ensures curve == Curve([underlying, principalToken], nInternal, g, g, now, pow)
      ensures reserves[..] == [0, 0]
    {
      curve := Curve([underlying, principalToken], nInternal, g, g, now, pow);
      var r := new int[2];
      r[0], r[1] := 0, 0;
      reserves := r;
    }

    /** `getReserve`: by position or by coin identity. */
    function GetReserve(ref: CoinRef): (r: Result<int>)
      requires Valid()
      reads reserves
      ensures ref.Index? ==> (r.Ok? <==> ref.i < 2)
      ensures ref.Index? && ref.i >= 2 ==> r == Err(IndexOutOfRange)
      ensures ref.Index? && ref.i < 2 ==> r.value == reserves[ref.i]
      ensures ref.Id? && ref.coin == curve.coins[0] ==> r == Ok(reserves[0])
      ensures ref.Id? && ref.coin == curve.coins[1] && curve.coins[0] != curve.coins[1] ==> r == Ok(reserves[1])
      ensures ref.Id? && ref.coin !in curve.coins ==> r == Err(InvalidCoin)
    {
      match ref
      case Index(i) => if i < reserves.Length then Ok(reserves[i]) else Err(IndexOutOfRange)
      case Id(_) =>
        var k :- GetIndex(curve.coins, ref);
        Ok(reserves[k])
    }

    /**
     * `swapExactIn` / `_swapExactIn`. The reserves are written before the
     * output and price checks, and a refused swap does not restore them.
     */
    method SwapExactIn(coinIn: Coin, coinOut: Coin, amountIn: int, now: int) returns (r: Result<int>)
      requires Valid()
      modifies reserves
      ensures var o := Swap(curve, old(reserves[0]), old(reserves[1]), coinIn, coinOut, amountIn, now);
              r == o.result && reserves[0] == o.r0 && reserves[1] == o.r1
    {
      if coinIn == coinOut {
        return Err(SameCoin);
      }
      var uReserve := reserves[0];
      var scaledPtReserve := reserves[1] * curve.n;
      var pow := curve.pow;
      var newU: int, newScaled: int, amountOut: int;
      if coinIn == curve.coins[0] {
        var factor :- FactorUnderlyingIn(curve, now);
        var invFactor := InverseFactor(factor);
        newU := uReserve + amountIn;
        newScaled := Trunc(pow(pow(scaledPtReserve as real, factor) + pow(uReserve as real, factor)
                               - pow(newU as real, factor), invFactor));
        if curve.n == 0 {
          return Err(ZeroDivision);
        }
        amountOut := Trunc((scaledPtReserve - newScaled) as real / curve.n as real);
      } else if coinIn == curve.coins[1] {
        var factor :- FactorMetaIn(curve, now);
        var invFactor := InverseFactor(factor);
        newScaled := scaledPtReserve + amountIn * curve.n;
        newU := Trunc(pow(pow(scaledPtReserve as real, factor) + pow(uReserve as real, factor)
                          - pow(newScaled as real, factor), invFactor));
        amountOut := uReserve - newU;
      } else {
        return Err(InvalidCoin);
      }
      if curve.n == 0 {
        return Err(ZeroDivision);
      }
      var newPt := Trunc(newScaled as real / curve.n as real);
      reserves[IndexOf(curve.coins, curve.coins[0])] := newU;
      reserves[IndexOf(curve.coins, curve.coins[1])] := newPt;
      // From here on a refusal leaves the new reserves in place.
      if amountOut < 0 {
        return Err(NegativeAmountOut);
      }
      var price :- PtPrice(curve, reserves[0], reserves[1], now);
      if price < 0.0 || price > 1.0 {
        return Err(InvalidPrice);
      }
      return Ok(amountOut);
    }
  }
}

=== FILE: lp_ledger.dfy ===
/**
 * The meta-pool's own LP-share ledger (LpToken): a dictionary from holder to
 * balance whose total supply is the sum of its values.
 *
 * A Python dict keeps its keys in insertion order and `sum` folds its values
 * left to right; the ledger keeps that order in `holders` beside the
 * `balances` map. In the source the dict is a class-level attribute, so every
 * pool shares one ledger: here a pool holds a reference to an `LpToken`, and
 * several pools may hold the same one.
 */
module LpLedger {
  import opened Types

  /** `dict.get(a, 0)`. */
  function Balance(m: map<Addr, int>, a: Addr): int
  {
    if a in m then m[a] else 0
  }

  /** Left fold of the balances of `keys`, in order: Python's `sum(...)`. */
  function SumOf(keys: seq<Addr>, m: map<Addr, int>): int
  {
    if |keys| == 0 then 0 else SumOf(keys[..|keys| - 1], m) + Balance(m, keys[|keys| - 1])
  }

  /** Changing the balance of a key outside `keys` does not change their sum. */
  lemma {:induction false} SumOfOtherKey(keys: seq<Addr>, m: map<Addr, int>, a: Addr, v: int)
    requires a !in keys
    ensures SumOf(keys, m[a := v]) == SumOf(keys, m)
  {
    if |keys| > 0 {
      SumOfOtherKey(keys[..|keys| - 1], m, a, v);
    }
  }

  /** Changing the balance of one listed key changes the sum by the same amount. */
  lemma {:induction false} SumOfUpdate(keys: seq<Addr>, m: map<Addr, int>, a: Addr, v: int)
    requires Distinct(keys)
    requires a in keys
    ensures SumOf(keys, m[a := v]) == SumOf(keys, m) - Balance(m, a) + v
  {
    var init := keys[..|keys| - 1];
    var last := keys[|keys| - 1];
    if last == a {
      assert a !in init by {
        forall j | 0 <= j < |init| ensures init[j] != a {
          assert keys[j] != keys[|keys| - 1];
        }
      }
      SumOfOtherKey(init, m, a, v);
    } else {
      assert a in init by {
        var k :| 0 <= k < |keys| && keys[k] == a;
        assert init[k] == a;
      }
      SumOfUpdate(init, m, a, v);
    }
  }

  /** With no negative balance, each listed balance is at most the sum, and the sum is non-negative. */
  lemma {:induction false} SumOfBounds(keys: seq<Addr>, m: map<Addr, int>)
    requires forall a :: Balance(m, a) >= 0
    ensures SumOf(keys, m) >= 0
    ensures forall a :: a in keys ==> Balance(m, a) <= SumOf(keys, m)
  {
    if |keys| > 0 {
      var init := keys[..|keys| - 1];
      SumOfBounds(init, m);
      forall a | a in keys ensures Balance(m, a) <= SumOf(keys, m) {
        if a != keys[|keys| - 1] {
          var k :| 0 <= k < |keys| && keys[k] == a;
          assert init[k] == a;
        }
      }
    }
  }

  /** Appending a key not yet listed keeps the holder list free of repeats. */
  lemma AppendKeepsDistinct(keys: seq<Addr>, a: Addr)
    requires Distinct(keys) && a !in keys
    ensures Distinct(keys + [a])
  {
  }

  class LpToken {
    /** The dict's keys in insertion order. */
    var holders: seq<Addr>
    /** The dict itself. */
    var balances: map<Addr, int>

    ghost predicate Valid()
      reads this
    {
      && (forall a :: a in balances <==> a in holders)
      && Distinct(holders)
    }

    /** No balance is negative. */
    ghost predicate NonNegative()
      reads this
    {
      forall a :: Balance(balances, a) >= 0
    }

    constructor ()
      ensures Valid() && NonNegative()
      ensures forall a :: BalanceOf(a) == 0
      ensures TotalSupply() == 0
    {
      holders := [];
      balances := map[];
    }

    /** `balanceOf`: 0 for an address that holds no entry. */
    function BalanceOf(a: Addr): (r: int)
      reads this
      ensures Valid() && a !in holders ==> r == 0
      ensures Valid() && NonNegative() ==> 0 <= r <= TotalSupply()
    {
      assert Valid() && NonNegative() ==> Balance(balances, a) <= SumOf(holders, balances) by {
        if Valid() && NonNegative() {
          SumOfBounds(holders, balances);
        }
      }
      Balance(balances, a)
    }

    /** `totalSupply`: the sum of all balances. */
    function TotalSupply(): (r: int)
      reads this
      ensures NonNegative() ==> 0 <= r
      ensures holders == [] ==> r == 0
    {
      assert NonNegative() ==> 0 <= SumOf(holders, balances) by {
        if NonNegative() {
          SumOfBounds(holders, balances);
        }
      }
      SumOf(holders, balances)
    }

    /** `mint`: raise one balance, inserting the key if it is new. */
    method Mint(a: Addr, amount: int)
      requires Valid()
      modifies this
      ensures Valid()
      ensures BalanceOf(a) == old(BalanceOf(a)) + amount
      ensures forall b :: b != a ==> BalanceOf(b) == old(BalanceOf(b))
      ensures TotalSupply() == old(TotalSupply()) + amount
      ensures old(NonNegative()) && old(BalanceOf(a)) + amount >= 0 ==> NonNegative()
    {
      ghost var before := balances;
      var updated := BalanceOf(a) + amount;
      if a in balances {
        SumOfUpdate(holders, balances, a, updated);
      } else {
        SumOfOtherKey(holders, balances, a, updated);
        AppendKeepsDistinct(holders, a);
        holders := holders + [a];
        assert holders[..|holders| - 1] == old(holders);
      }
      balances := balances[a := updated];
      assert forall b :: b in balances <==> b in holders;
      assert forall b :: b != a ==> Balance(balances, b) == Balance(before, b);
    }

    /** `burn`: lower one balance, refusing to go below zero. */
    method Burn(a: Addr, amount: int) returns (r: Result<()>)
      requires Valid()
      modifies this
      ensures Valid()
      ensures r.Err? <==> amount > old(BalanceOf(a))
      ensures r.Err? ==> r.error == InsufficientBalance && unchanged(this)
      ensures r.Ok? ==> BalanceOf(a) == old(BalanceOf(a)) - amount >= 0
      ensures r.Ok? ==> TotalSupply() == old(TotalSupply()) - amount
      ensures forall b :: b != a ==> BalanceOf(b) == old(BalanceOf(b))
      ensures old(NonNegative()) ==> NonNegative()
    {
      if BalanceOf(a) < amount {
        return Err(InsufficientBalance);
      }
      Mint(a, -amount);
      r := Ok(());
    }
  }

  /** A ledger whose supply is zero and holds no negative balance holds nothing at all. */
  lemma EmptySupplyHoldsNothing(t: LpToken, a: Addr)
    requires t.Valid() && t.NonNegative()
    requires t.TotalSupply() == 0
    ensures t.BalanceOf(a) == 0
  {
    SumOfBounds(t.holders, t.balances);
  }
}

=== FILE: meta_pool.dfy ===
/**
 * The meta-pool orchestrator (YieldMetaAMM together with its concrete
 * subclass NapierYieldMetaCurveV2, whose external-pool hooks it uses).
 *
 * The pool trades an underlying coin against N internal (principal) coins.
 * Its engine prices underlying against the external pool's LP token, the
 * metacoin; internal coins enter and leave through the external pool's
 * add/remove-liquidity calls. The pool's own LP shares live in an `LpToken`.
 *
 * Token transfers and external-pool calls are not executed: each one is
 * appended to the pool's `log` as an `Event`, so their order is part of the
 * state. What the external pool answers (LP tokens minted, coins paid out,
 * its balances and supply) is a parameter of the operation; the clock is the
 * parameter `now`.
 *
 * Each operation is specified by an `...Effect` function over the pool's
 * configuration and the old state: the result, the new reserves, the events
 * appended and the LP shares added to the caller. The class methods are proved
 * to produce exactly that effect.
 */
module MetaPool {
  import opened Types
  import opened CoinResolution
  import opened LpLedger
  import opened DecayingInvariant

  /** One transfer or external-pool call, as issued by the pool. */
  datatype Event =
    | TransferFrom(coin: Coin, from: Addr, to: Addr, amount: int)
    | Transfer(coin: Coin, to: Addr, amount: int)
    | ExtAddLiquidity(amounts: seq<int>, minMint: int, minted: int)
    | ExtRemoveLiquidity(share: int, minAmounts: seq<int>, recipient: Addr)
    | ExtRemoveOneCoin(share: int, index: nat, minAmount: int, recipient: Addr, amountOut: int)

  /** The fixed part of a pool: its engine's curve, its internal coins and its own address. */
  datatype PoolConfig = PoolConfig(curve: Curve, internalCoins: seq<Coin>, address: Addr) {
    ghost predicate Valid()
    {
      && |curve.coins| == 2
      && curve.coins[0] != curve.coins[1]
      && Distinct(internalCoins)
      && curve.n == |internalCoins|
    }
  }

  /**
   * What an operation does: its result, the reserves it leaves, the events it
   * appends and the LP shares it adds to the caller's balance (negative for a burn).
   */
  datatype Effect<T> = Effect(result: Result<T>, r0: int, r1: int, events: seq<Event>, shareDelta: int)

  /** The branches of `swapExactIn`, in the order the source tests them. */
  datatype Route =
    | RouteSameCoin
    | RouteMetaIn
    | RouteUnderlyingIn
    | RoutePtIn
    | RouteUnderlyingOutOnly
    | RouteInvalidCoinIn

  /** `swapExactIn`'s dispatch on `(coinIn, coinOut)`; `coins == [underlying, metacoin]`. */
  function SwapRoute(coins: seq<Coin>, internalCoins: seq<Coin>, coinIn: Coin, coinOut: Coin): (r: Route)
    requires |coins| == 2
    ensures r == RouteSameCoin <==> coinIn == coinOut
    ensures r == RouteMetaIn <==> coinIn != coinOut && coinIn == coins[1]
    ensures r == RouteUnderlyingIn <==> coinIn != coinOut && coinIn != coins[1] && coinIn == coins[0]
    ensures r == RoutePtIn <==>
              coinIn != coinOut && coinIn !in coins && coinIn in internalCoins && coinOut == coins[0]
    ensures r == RouteUnderlyingOutOnly <==>
              coinIn != coinOut && coinIn !in coins && coinIn in internalCoins && coinOut != coins[0]
    ensures r == RouteInvalidCoinIn <==> coinIn != coinOut && coinIn !in coins && coinIn !in internalCoins
  {
    if coinIn == coinOut then RouteSameCoin
    else if coinIn == coins[1] then RouteMetaIn
    else if coinIn == coins[0] then RouteUnderlyingIn
    else if coinIn in internalCoins then
      if coinOut != coins[0] then RouteUnderlyingOutOnly else RoutePtIn
    else RouteInvalidCoinIn
  }

  /** Python's `[x] * n`. */
  function Filled(n: nat, x: int): (s: seq<int>)
    ensures |s| == n && forall k :: 0 <= k < n ==> s[k] == x
  {
    seq(n, _ => x)
  }

  /**
   * `_addExternalLiquidityFromOneCoin`'s amounts vector: zero everywhere but
   * `amount` at `index`.
   */
  function OneCoinAmounts(n: nat, index: nat, amount: int): (a: seq<int>)
    requires index < n
    ensures |a| == n && a[index] == amount
    ensures forall k :: 0 <= k < n && k != index ==> a[k] == 0
  {
    Filled(n, 0)[index := amount]
  }

  /** `int(a / b)` for non-negative `a` and positive `b` is integer division. */
  lemma TruncQuotient(a: int, b: int)
    requires 0 <= a && 0 < b
    ensures Trunc(a as real / b as real) == a / b
  {
    var q, m := a / b, a % b;
    assert (a as real) == (q as real) * (b as real) + m as real;
    assert a as real / b as real == q as real + m as real / b as real;
  }

  /**
   * `int(share / total * reserve)`: the part of a reserve that `share` out
   * of `total` shares stands for.
   */
  function ProRata(share: int, total: int, reserve: int): (r: int)
    requires total != 0
    ensures 0 <= share && 0 <= reserve && 0 < total ==> r == share * reserve / total
  {
    var x := share as real / total as real * reserve as real;
    assert 0 <= share && 0 <= reserve && 0 < total ==> Trunc(x) == share * reserve / total by {
      if 0 <= share && 0 <= reserve && 0 < total {
        assert x == (share * reserve) as real / total as real;
        TruncQuotient(share * reserve, total);
      }
    }
    Trunc(x)
  }

  /**
   * `_addExternalLiquidityFromShare`'s amounts:
   * `[int(x * inner / extSupply) for x in balances]`.
   */
  function ExtAmounts(balances: seq<int>, inner: int, extSupply: int): (r: Result<seq<int>>)
    ensures r.Err? <==> extSupply == 0 && |balances| > 0
    ensures r.Err? ==> r.error == ZeroDivision
    ensures r.Ok? ==> |r.value| == |balances|
    ensures r.Ok? && 0 <= inner && 0 < extSupply ==>
              forall i :: 0 <= i < |balances| && 0 <= balances[i] ==>
                r.value[i] == balances[i] * inner / extSupply
  {
    if extSupply == 0 then
      if |balances| == 0 then Ok([]) else Err(ZeroDivision)
    else
      var amounts := seq(|balances|, i requires 0 <= i < |balances| =>
                           Trunc((balances[i] * inner) as real / extSupply as real));
      assert 0 <= inner && 0 < extSupply ==>
               forall i :: 0 <= i < |balances| && 0 <= balances[i] ==>
                 amounts[i] == balances[i] * inner / extSupply by {
        if 0 <= inner && 0 < extSupply {
          forall i | 0 <= i < |balances| && 0 <= balances[i]
            ensures amounts[i] == balances[i] * inner / extSupply
          {
            TruncQuotient(balances[i] * inner, extSupply);
          }
        }
      }
      Ok(amounts)
  }

  /** One `transferFrom(coins[k], from, to, amounts[k])` per internal coin, in order. */
  function Pulls(coins: seq<Coin>, amounts: seq<int>, from: Addr, to: Addr): (es: seq<Event>)
    requires |coins| == |amounts|
    ensures |es| == |coins|
    ensures forall k :: 0 <= k < |es| ==> es[k] == TransferFrom(coins[k], from, to, amounts[k])
  {
    if |coins| == 0 then []
    else Pulls(coins[..|coins| - 1], amounts[..|amounts| - 1], from, to)
         + [TransferFrom(coins[|coins| - 1], from, to, amounts[|amounts| - 1])]
  }

  /** `_swapUnderlyingExactIn`. */
  function UnderlyingInEffect(p: PoolConfig, r0: int, r1: int, coinOut: Coin, amountIn: int,
                              caller: Addr, now: int, amountOut: int): Effect<int>
    requires p.Valid()
  {
    if amountIn < 0 then Effect(Err(NegativeAmountIn), r0, r1, [], 0)
    else
      var pull := [TransferFrom(p.curve.coins[0], caller, p.address, amountIn)];
      var o := Swap(p.curve, r0, r1, p.curve.coins[0], p.curve.coins[1], amountIn, now);
      match o.result
      case Err(e) => Effect(Err(e), o.r0, o.r1, pull, 0)
      case Ok(swapped) =>
        match ListIndex(p.internalCoins, coinOut)
        case Err(e) => Effect(Err(e), o.r0, o.r1, pull, 0)
        case Ok(i) => Effect(Ok(amountOut), o.r0, o.r1, pull + [ExtRemoveOneCoin(swapped, i, 0, caller, amountOut)], 0)
  }

  /** `_swapPTExactIn`, with `minted` the external pool's answer to the single-coin deposit. */
  function PtInEffect(p: PoolConfig, r0: int, r1: int, coinIn: Coin, coinOut: Coin, amountIn: int,
                      caller: Addr, now: int, minted: int): Effect<int>
    requires p.Valid()
  {
    if amountIn < 0 then Effect(Err(NegativeAmountIn), r0, r1, [], 0)
    else
      var pull := [TransferFrom(coinIn, caller, p.address, amountIn)];
      match ListIndex(p.internalCoins, coinIn)
      case Err(e) => Effect(Err(e), r0, r1, pull, 0)
      case Ok(i) =>
        var added := pull + [ExtAddLiquidity(OneCoinAmounts(|p.internalCoins|, i, amountIn), 0, minted)];
        var o := Swap(p.curve, r0, r1, p.curve.coins[1], coinOut, minted, now);
        match o.result
        case Err(e) => Effect(Err(e), o.r0, o.r1, added, 0)
        case Ok(out) => Effect(Ok(out), o.r0, o.r1, added + [Transfer(coinOut, caller, out)], 0)
  }

  /**
   * `swapExactIn`. `reply` is the external pool's answer on the route taken:
   * the coin paid out for an underlying-in swap, the LP tokens minted for a
   * principal-token-in swap.
   */
  function SwapEffect(p: PoolConfig, r0: int, r1: int, coinIn: Coin, coinOut: Coin, amountIn: int,
                      caller: Addr, now: int, reply: int): Effect<int>
    requires p.Valid()
  {
    match SwapRoute(p.curve.coins, p.internalCoins, coinIn, coinOut)
    case RouteSameCoin => Effect(Err(SameCoin), r0, r1, [], 0)
    case RouteMetaIn => Effect(Err(MetaCoinInNotImplemented), r0, r1, [], 0)
    case RouteUnderlyingIn => UnderlyingInEffect(p, r0, r1, coinOut, amountIn, caller, now, reply)
    case RoutePtIn => PtInEffect(p, r0, r1, coinIn, coinOut, amountIn, caller, now, reply)
    case RouteUnderlyingOutOnly => Effect(Err(UnderlyingOutOnly), r0, r1, [], 0)
    case RouteInvalidCoinIn => Effect(Err(InvalidCoinIn), r0, r1, [], 0)
  }

  /** `_initializeLiquidity`, with `minted` the external pool's answer to the deposit. */
  function InitializeEffect(p: PoolConfig, r0: int, r1: int, supply: int, uAmount: int,
                            caller: Addr, minted: int): Effect<int>
    requires p.Valid()
  {
    if supply != 0 then Effect(Err(AlreadyInitialized), r0, r1, [], 0)
    else if |p.internalCoins| == 0 then Effect(Err(ZeroDivision), r0, r1, [], 0)
    else
      var n := |p.internalCoins|;
      var ptAmount := Trunc(uAmount as real / n as real);
      Effect(Ok(minted), uAmount, minted, SeedEvents(p, uAmount, ptAmount, caller, minted), ptAmount)
  }

  /**
   * The transfers and the deposit of `_initializeLiquidity`: the underlying,
   * then `ptAmount` of every internal coin, then all of them into the external pool.
   */
  function SeedEvents(p: PoolConfig, uAmount: int, ptAmount: int, caller: Addr, minted: int): seq<Event>
    requires p.Valid()
  {
    var amounts := Filled(|p.internalCoins|, ptAmount);
    [TransferFrom(p.curve.coins[0], caller, p.address, uAmount)]
    + Pulls(p.internalCoins, amounts, caller, p.address)
    + [ExtAddLiquidity(amounts, 0, minted)]
  }

  /**
   * `addLiquidityFromShare`, with the external pool's balances, supply and
   * answer to the deposit as parameters.
   */
  function AddEffect(p: PoolConfig, r0: int, r1: int, supply: int, share: int, caller: Addr,
                     extBalances: seq<int>, extSupply: int, minted: int): Effect<()>
    requires p.Valid() && |extBalances| == |p.internalCoins|
  {
    if supply == 0 then Effect(Err(NoLiquidity), r0, r1, [], 0)
    else
      var uAmountIn := ProRata(share, supply, r0);
      var pull := [TransferFrom(p.curve.coins[0], caller, p.address, uAmountIn)];
      var innerShare := ProRata(share, supply, r1);
      match ExtAmounts(extBalances, innerShare, extSupply)
      case Err(e) => Effect(Err(e), r0, r1, pull, 0)
      case Ok(amounts) =>
        var events := pull + Pulls(p.internalCoins, amounts, caller, p.address)
                      + [ExtAddLiquidity(amounts, 0, minted)];
        Effect(Ok(()), r0 + uAmountIn, r1 + minted, events, share)
  }

  /**
   * `removeLiquidityFromShare`. The transfers and reserve updates come first
   * and the burn last, so a burn refused for lack of balance leaves them in place.
   * The metacoin reserve drops by the requested inner share, not by anything
   * the external pool reports.
   */
  function RemoveEffect(p: PoolConfig, r0: int, r1: int, supply: int, callerBalance: int,
                        share: int, caller: Addr): Effect<int>
    requires p.Valid()
  {
    if supply == 0 then Effect(Err(NoLiquidity), r0, r1, [], 0)
    else
      var uAmountOut := ProRata(share, supply, r0);
      var innerShare := ProRata(share, supply, r1);
      var events := [Transfer(p.curve.coins[0], caller, uAmountOut),
                     ExtRemoveLiquidity(innerShare, Filled(|p.internalCoins|, 0), caller)];
      if share > callerBalance then Effect(Err(InsufficientBalance), r0 - uAmountOut, r1 - innerShare, events, 0)
      else Effect(Ok(share), r0 - uAmountOut, r1 - innerShare, events, -share)
  }

  /** `getExtReserve`: the external pool's balance of an internal coin, by position or identity. */
  function ExtReserve(internalCoins: seq<Coin>, ref: CoinRef, extBalances: seq<int>): (r: Result<int>)
    requires |extBalances| == |internalCoins|
    ensures ref.Index? ==> (r.Ok? <==> ref.i < |extBalances|)
    ensures ref.Index? && ref.i < |extBalances| ==> r.value == extBalances[ref.i]
    ensures ref.Id? ==> (r.Ok? <==> ref.coin in internalCoins)
    ensures ref.Id? && r.Ok? ==> exists k :: 0 <= k < |internalCoins| && internalCoins[k] == ref.coin
                                              && r.value == extBalances[k]
    ensures Distinct(internalCoins) ==>
              forall k :: 0 <= k < |internalCoins| ==> ExtReserveOf(internalCoins, internalCoins[k], extBalances) == Ok(extBalances[k])
  {
    match ref
    case Index(i) => if i < |extBalances| then Ok(extBalances[i]) else Err(IndexOutOfRange)
    case Id(c) => ExtReserveOf(internalCoins, c, extBalances)
  }

  /** `getExtReserve` by coin identity: `balances(_get_internal_coin_index(coin))`. */
  function ExtReserveOf(internalCoins: seq<Coin>, coin: Coin, extBalances: seq<int>): (r: Result<int>)
    requires |extBalances| == |internalCoins|
    ensures r.Ok? <==> coin in internalCoins
    ensures r.Err? ==> r.error == NotInList
    ensures r.Ok? ==> r.value == extBalances[IndexOf(internalCoins, coin)]
  {
    var i :- ListIndex(internalCoins, coin);
    Ok(extBalances[i])
  }

  // ---------------------------------------------------------------------
  // Properties of the operations
  // ---------------------------------------------------------------------

  /** Both swap routes refuse a negative amount and change nothing; zero is let through. */
  lemma SwapRoutesRejectNegativeAmount(p: PoolConfig, r0: int, r1: int, coinIn: Coin, coinOut: Coin,
                                       amountIn: int, caller: Addr, now: int, reply: int)
    requires p.Valid()
    ensures amountIn < 0 ==>
              UnderlyingInEffect(p, r0, r1, coinOut, amountIn, caller, now, reply)
                == Effect(Err(NegativeAmountIn), r0, r1, [], 0)
    ensures amountIn < 0 ==>
              PtInEffect(p, r0, r1, coinIn, coinOut, amountIn, caller, now, reply)
                == Effect(Err(NegativeAmountIn), r0, r1, [], 0)
    ensures amountIn == 0 ==>
              UnderlyingInEffect(p, r0, r1, coinOut, amountIn, caller, now, reply).result != Err(NegativeAmountIn)
    ensures amountIn == 0 && coinIn in p.internalCoins ==>
              PtInEffect(p, r0, r1, coinIn, coinOut, amountIn, caller, now, reply).result != Err(NegativeAmountIn)
  {
  }

  /**
   * Underlying in: the underlying is pulled first, the engine's metacoin
   * output goes unchanged to `remove_liquidity_one_coin` at the output coin's
   * index, and the caller gets what the external pool pays. The metacoin
   * reserve the source divides by for its progress message is not zero.
   */
  lemma UnderlyingInForwardsEngineOutput(p: PoolConfig, r0: int, r1: int, coinOut: Coin, amountIn: int,
                                         caller: Addr, now: int, amountOut: int)
    requires p.Valid()
    requires 0 <= amountIn && coinOut in p.internalCoins
    requires TimeToMaturity(p.curve, now).Ok?
    ensures var e := UnderlyingInEffect(p, r0, r1, coinOut, amountIn, caller, now, amountOut);
            var o := Swap(p.curve, r0, r1, p.curve.coins[0], p.curve.coins[1], amountIn, now);
            var pull := TransferFrom(p.curve.coins[0], caller, p.address, amountIn);
            && e.r0 == r0 + amountIn
            && e.r0 == o.r0 && e.r1 == o.r1
            && (e.result.Ok? <==> o.result.Ok?)
            && (o.result.Err? ==> e.result == o.result && e.events == [pull])
            && (o.result.Ok? ==>
                  && e.result == Ok(amountOut)
                  && e.r1 != 0
                  && e.events == [pull, ExtRemoveOneCoin(o.result.value, IndexOf(p.internalCoins, coinOut), 0, caller, amountOut)]
                  && p.internalCoins[e.events[1].index] == coinOut)
  {
    SwapUnderlyingInGrowsUnderlying(p.curve, r0, r1, p.curve.coins[1], amountIn, now);
  }

  /**
   * Underlying in to a coin that is not internal: always refused, but only at
   * the index lookup, after the engine has already moved the reserves.
   */
  lemma UnderlyingInLateCoinCheck(p: PoolConfig, r0: int, r1: int, coinOut: Coin, amountIn: int,
                                  caller: Addr, now: int, amountOut: int)
    requires p.Valid()
    requires 0 <= amountIn && coinOut !in p.internalCoins && 0 < |p.internalCoins|
    requires TimeToMaturity(p.curve, now).Ok?
    ensures var e := UnderlyingInEffect(p, r0, r1, coinOut, amountIn, caller, now, amountOut);
            var o := Swap(p.curve, r0, r1, p.curve.coins[0], p.curve.coins[1], amountIn, now);
            && e.result.Err?
            && (o.result.Ok? ==> e.result == Err(NotInList))
            && e.r0 == r0 + amountIn
            && e.events == [TransferFrom(p.curve.coins[0], caller, p.address, amountIn)]
  {
    SwapUnderlyingInGrowsUnderlying(p.curve, r0, r1, p.curve.coins[1], amountIn, now);
  }

  /**
   * Principal token in: the single-coin deposit carries `amountIn` in the
   * input coin's slot only, the LP tokens it mints are exactly the engine's
   * metacoin input, and the caller receives exactly the engine's output.
   */
  lemma PtInFeedsMintedToEngine(p: PoolConfig, r0: int, r1: int, coinIn: Coin, amountIn: int,
                                caller: Addr, now: int, minted: int)
    requires p.Valid()
    requires PtInEffect(p, r0, r1, coinIn, p.curve.coins[0], amountIn, caller, now, minted).result.Ok?
    ensures var e := PtInEffect(p, r0, r1, coinIn, p.curve.coins[0], amountIn, caller, now, minted);
            var o := Swap(p.curve, r0, r1, p.curve.coins[1], p.curve.coins[0], minted, now);
            var i := IndexOf(p.internalCoins, coinIn);
            && coinIn in p.internalCoins
            && e.result == o.result
            && e.r1 == r1 + minted
            && |e.events| == 3
            && e.events[1].amounts == OneCoinAmounts(|p.internalCoins|, i, amountIn)
            && e.events[1].minted == minted
            && e.events[2] == Transfer(p.curve.coins[0], caller, o.result.value)
  {
    SwapMetaInGrowsMetacoin(p.curve, r0, r1, p.curve.coins[0], minted, now);
  }

  /** The dispatch: which requests are refused outright, and with what. */
  lemma SwapDispatch(p: PoolConfig, r0: int, r1: int, coinIn: Coin, coinOut: Coin, amountIn: int,
                     caller: Addr, now: int, reply: int)
    requires p.Valid()
    ensures var e := SwapEffect(p, r0, r1, coinIn, coinOut, amountIn, caller, now, reply);
            && (coinIn == coinOut ==> e == Effect(Err(SameCoin), r0, r1, [], 0))
            && (coinIn != coinOut && coinIn == p.curve.coins[1] ==>
                  e == Effect(Err(MetaCoinInNotImplemented), r0, r1, [], 0))
            && (coinIn != coinOut && coinIn == p.curve.coins[0] ==>
                  e == UnderlyingInEffect(p, r0, r1, coinOut, amountIn, caller, now, reply))
            && (coinIn !in p.curve.coins && coinIn in p.internalCoins && coinOut == p.curve.coins[0] ==>
                  e == PtInEffect(p, r0, r1, coinIn, coinOut, amountIn, caller, now, reply))
            && (coinIn != coinOut && coinIn !in p.curve.coins && coinIn in p.internalCoins
                && coinOut != p.curve.coins[0] ==>
                  e == Effect(Err(UnderlyingOutOnly), r0, r1, [], 0))
            && (coinIn != coinOut && coinIn !in p.curve.coins && coinIn !in p.internalCoins ==>
                  e == Effect(Err(InvalidCoinIn), r0, r1, [], 0))
  {
  }

  /**
   * Initialisation: refused once shares exist; otherwise pulls `uAmount` of
   * underlying and `uAmount / N` of every internal coin, sets the reserves to
   * `(uAmount, minted)` and mints `uAmount / N` shares.
   */
  lemma InitializeSeedsPool(p: PoolConfig, r0: int, r1: int, supply: int, uAmount: int, caller: Addr, minted: int)
    requires p.Valid()
    requires 0 <= uAmount && 0 < |p.internalCoins|
    ensures var e := InitializeEffect(p, r0, r1, supply, uAmount, caller, minted);
            var n := |p.internalCoins|;
            && (supply != 0 ==> e == Effect(Err(AlreadyInitialized), r0, r1, [], 0))
            && (supply == 0 ==>
                  && e.result == Ok(minted)
                  && e.r0 == uAmount && e.r1 == minted
                  && e.shareDelta == uAmount / n
                  && |e.events| == n + 2
                  && e.events[0] == TransferFrom(p.curve.coins[0], caller, p.address, uAmount)
                  && (forall k :: 1 <= k <= n ==>
                        e.events[k] == TransferFrom(p.internalCoins[k - 1], caller, p.address, uAmount / n))
                  && e.events[n + 1] == ExtAddLiquidity(Filled(n, uAmount / n), 0, minted))
  {
    TruncQuotient(uAmount, |p.internalCoins|);
  }

  /** Adding by share with no shares outstanding is refused and changes nothing. */
  lemma AddNeedsLiquidity(p: PoolConfig, r0: int, r1: int, share: int, caller: Addr,
                          extBalances: seq<int>, extSupply: int, minted: int)
    requires p.Valid() && |extBalances| == |p.internalCoins|
    ensures AddEffect(p, r0, r1, 0, share, caller, extBalances, extSupply, minted)
              == Effect(Err(NoLiquidity), r0, r1, [], 0)
  {
  }

  /**
   * Adding by share with shares outstanding: the underlying pulled from the
   * caller is the pro-rata part and is exactly what the underlying reserve
   * grows by; the metacoin reserve grows by the external pool's minted amount
   * and the supply by exactly `share`. Each internal coin is pulled in
   * proportion to the external pool's balance of it, and exactly those
   * amounts are deposited, with a zero minimum.
   */
  lemma AddFromShareGrowsPool(p: PoolConfig, r0: int, r1: int, supply: int, share: int, caller: Addr,
                              extBalances: seq<int>, extSupply: int, minted: int)
    requires p.Valid() && |extBalances| == |p.internalCoins|
    requires 0 <= share && 0 <= r0 && 0 <= r1 && 0 < supply && 0 < extSupply
    requires forall i :: 0 <= i < |extBalances| ==> 0 <= extBalances[i]
    ensures var e := AddEffect(p, r0, r1, supply, share, caller, extBalances, extSupply, minted);
            var inner := share * r1 / supply;
            var n := |p.internalCoins|;
            && e.result == Ok(())
            && e.r0 == r0 + share * r0 / supply
            && e.r1 == r1 + minted
            && e.shareDelta == share
            && |e.events| == n + 2
            && e.events[0] == TransferFrom(p.curve.coins[0], caller, p.address, e.r0 - r0)
            && (forall k :: 1 <= k <= n ==>
                  e.events[k] == TransferFrom(p.internalCoins[k - 1], caller, p.address,
                                              extBalances[k - 1] * inner / extSupply))
            && e.events[n + 1].ExtAddLiquidity?
            && e.events[n + 1].minMint == 0 && e.events[n + 1].minted == minted
            && |e.events[n + 1].amounts| == n
            && (forall k :: 0 <= k < n ==> e.events[n + 1].amounts[k] == extBalances[k] * inner / extSupply)
  {
    var inner := ProRata(share, supply, r1);
    assert 0 <= inner by {
      assert inner == share * r1 / supply;
    }
  }

  /** Removing by share with no shares outstanding is refused and changes nothing. */
  lemma RemoveNeedsLiquidity(p: PoolConfig, r0: int, r1: int, callerBalance: int, share: int, caller: Addr)
    requires p.Valid()
    ensures RemoveEffect(p, r0, r1, 0, callerBalance, share, caller) == Effect(Err(NoLiquidity), r0, r1, [], 0)
  {
  }

  /**
   * Removing by share: both reserves shrink by their pro-rata parts and the
   * caller's `share` is burnt; without enough balance the burn is refused,
   * but only after the reserves and transfers.
   */
  lemma RemoveFromShareShrinksPool(p: PoolConfig, r0: int, r1: int, supply: int, callerBalance: int,
                                   share: int, caller: Addr)
    requires p.Valid()
    requires 0 <= share && 0 <= r0 && 0 <= r1 && 0 < supply
    ensures var e := RemoveEffect(p, r0, r1, supply, callerBalance, share, caller);
            && e.r0 == r0 - share * r0 / supply
            && e.r1 == r1 - share * r1 / supply
            && e.events == [Transfer(p.curve.coins[0], caller, share * r0 / supply),
                            ExtRemoveLiquidity(r1 - e.r1, Filled(|p.internalCoins|, 0), caller)]
            && (share <= callerBalance ==> e.result == Ok(share) && e.shareDelta == -share)
            && (share > callerBalance ==> e.result == Err(InsufficientBalance) && e.shareDelta == 0)
  {
  }

  /** Adding `share` and then removing it again leaves the total supply where it was. */
  lemma AddThenRemoveRestoresSupply(p: PoolConfig, r0: int, r1: int, supply: int, callerBalance: int,
                                    share: int, caller: Addr, extBalances: seq<int>, extSupply: int, minted: int)
    requires p.Valid() && |extBalances| == |p.internalCoins|
    requires 0 < supply && 0 <= share && 0 <= callerBalance
    requires AddEffect(p, r0, r1, supply, share, caller, extBalances, extSupply, minted).result.Ok?
    ensures var a := AddEffect(p, r0, r1, supply, share, caller, extBalances, extSupply, minted);
            var rm := RemoveEffect(p, a.r0, a.r1, supply + a.shareDelta, callerBalance + a.shareDelta, share, caller);
            rm.result == Ok(share) && supply + a.shareDelta + rm.shareDelta == supply
  {
  }

  // ---------------------------------------------------------------------
  // The pool object
  // ---------------------------------------------------------------------

  class YieldMetaPool {
    /** `[underlying, metacoin]`. */
    const coins: seq<Coin>
    const internalCoins: seq<Coin>
    const address: Addr
    const engine: Engine
    /** The share ledger; in the source it is shared by every pool. */
    const ledger: LpToken
    /** Every transfer and external-pool call issued so far, in order. */
    var log: seq<Event>

    ghost predicate Valid()
      reads this, ledger
    {
      && engine.Valid()
      && engine.curve.coins == coins
      && Config().Valid()
      && ledger.Valid()
    }

    /** The pool's fixed configuration, as the Effect functions take it. */
    function Config(): PoolConfig
    {
      PoolConfig(engine.curve, internalCoins, address)
    }

    /**
     * The constructor builds its own engine over `[underlying, metacoin]`
     * with one internal coin per entry of `internals`.
     */
    constructor (underlying: Coin, metacoin: Coin, internals: seq<Coin>, address: Addr, g: real,
                 now: int, pow: (real, real) -> real, ledger: LpToken)
      requires underlying != metacoin && Distinct(internals)
      requires ledger.Valid()
      ensures Valid() && fresh(engine) && fresh(engine.reserves)
      ensures coins == [underlying, metacoin] && internalCoins == internals
      ensures this.address == address && this.ledger == ledger && log == []
      ensures engine.curve == Curve(coins, |internals|, g, g, now, pow)
      ensures engine.reserves[..] == [0, 0]
    {
      engine := new Engine(underlying, metacoin, g, |internals|, now, pow);
      coins := [underlying, metacoin];
      internalCoins := internals;
      this.address := address;
      this.ledger := ledger;
      log := [];
    }

    /** `getReserve`, answered by the engine. */
    function GetReserve(ref: CoinRef): (r: Result<int>)
      requires Valid()
      reads this, ledger, engine.reserves
      ensures ref == Id(coins[0]) || ref == Index(0) ==> r == Ok(engine.reserves[0])
      ensures ref == Id(coins[1]) || ref == Index(1) ==> r == Ok(engine.reserves[1])
      ensures ref.Id? && ref.coin !in coins ==> r == Err(InvalidCoin)
    {
      engine.GetReserve(ref)
    }

    /** `r_idx`: the engine's marginal interest rate on the current reserves. */
    function RIdx(): (r: Result<real>)
      requires Valid()
      reads this, ledger, engine.reserves
      ensures r.Ok? <==> engine.reserves[0] != 0
      ensures r.Ok? ==> (r.value == 0.0 <==> engine.reserves[0] == 3 * engine.reserves[1])
    {
      MarginalInterestRate(engine.reserves[0], engine.reserves[1])
    }

    /** `_get_internal_coin_index`. */
    function InternalCoinIndex(coin: Coin): (r: Result<nat>)
      ensures r.Ok? <==> coin in internalCoins
      ensures r.Ok? ==> r.value < |internalCoins| && internalCoins[r.value] == coin
      ensures r.Err? ==> r.error == NotInList
    {
      ListIndex(internalCoins, coin)
    }

    /** The loop that pulls each internal coin's amount from `from`. */
    method PullInternalCoins(amounts: seq<int>, from: Addr)
      requires |amounts| == |internalCoins|
      modifies this
      ensures log == old(log) + Pulls(internalCoins, amounts, from, address)
    {
      var i := 0;
      while i < |internalCoins|
        invariant 0 <= i <= |internalCoins|
        invariant log == old(log) + Pulls(internalCoins[..i], amounts[..i], from, address)
      {
        assert internalCoins[..i + 1][..i] == internalCoins[..i];
        assert amounts[..i + 1][..i] == amounts[..i];
        log := log + [TransferFrom(internalCoins[i], from, address, amounts[i])];
        i := i + 1;
      }
      assert internalCoins[..i] == internalCoins && amounts[..i] == amounts;
    }

    /** `_addExternalLiquidityFromOneCoin`; `minted` is the external pool's answer. */
    method AddExternalLiquidityFromOneCoin(coinIn: Coin, amountIn: int, caller: Addr, minted: int)
      returns (r: Result<int>)
      modifies this
      ensures coinIn !in internalCoins ==>
                r == Err(NotInList) && log == old(log) + [TransferFrom(coinIn, caller, address, amountIn)]
      ensures coinIn in internalCoins ==>
                && r == Ok(minted)
                && log == old(log) + [TransferFrom(coinIn, caller, address, amountIn),
                                      ExtAddLiquidity(OneCoinAmounts(|internalCoins|, IndexOf(internalCoins, coinIn), amountIn), 0, minted)]
    {
      log := log + [TransferFrom(coinIn, caller, address, amountIn)];
      var index :- InternalCoinIndex(coinIn);
      var amountsIn := OneCoinAmounts(|internalCoins|, index, amountIn);
      log := log + [ExtAddLiquidity(amountsIn, 0, minted)];
      return Ok(minted);
    }

    /** `_removeExternalLiquidityOneCoin`; `amountOut` is the external pool's answer. */
    method RemoveExternalLiquidityOneCoin(coinWithdraw: Coin, innerShare: int, caller: Addr, amountOut: int)
      returns (r: Result<int>)
      modifies this
      ensures coinWithdraw !in internalCoins ==> r == Err(NotInList) && log == old(log)
      ensures coinWithdraw in internalCoins ==>
                && r == Ok(amountOut)
                && log == old(log) + [ExtRemoveOneCoin(innerShare, IndexOf(internalCoins, coinWithdraw), 0, caller, amountOut)]
    {
      var i :- InternalCoinIndex(coinWithdraw);
      log := log + [ExtRemoveOneCoin(innerShare, i, 0, caller, amountOut)];
      return Ok(amountOut);
    }

    /** `_addExternalLiquidityFromShare`, over the external pool's balances and supply. */
    method AddExternalLiquidityFromShare(innerShare: int, caller: Addr, extBalances: seq<int>,
                                         extSupply: int, minted: int)
      returns (r: Result<int>)
      requires |extBalances| == |internalCoins|
      modifies this
      ensures ExtAmounts(extBalances, innerShare, extSupply).Err? ==> r == Err(ZeroDivision) && log == old(log)
      ensures ExtAmounts(extBalances, innerShare, extSupply).Ok? ==>
                var amounts := ExtAmounts(extBalances, innerShare, extSupply).value;
                && r == Ok(minted)
                && log == old(log) + Pulls(internalCoins, amounts, caller, address)
                                   + [ExtAddLiquidity(amounts, 0, minted)]
    {
      var amountsIn :- ExtAmounts(extBalances, innerShare, extSupply);
      PullInternalCoins(amountsIn, caller);
      log := log + [ExtAddLiquidity(amountsIn, 0, minted)];
      return Ok(minted);
    }

    /** `_removeExternalLiquidityFromShare`: the external pool pays the coins to the caller directly. */
    method RemoveExternalLiquidityFromShare(innerShare: int, caller: Addr)
      modifies this
      ensures log == old(log) + [ExtRemoveLiquidity(innerShare, Filled(|internalCoins|, 0), caller)]
    {
      log := log + [ExtRemoveLiquidity(innerShare, Filled(|internalCoins|, 0), caller)];
    }

    /** `_swapUnderlyingExactIn`. */
    method SwapUnderlyingExactIn(coinOut: Coin, amountIn: int, caller: Addr, now: int, amountOut: int)
      returns (r: Result<int>)
      requires Valid()
      modifies this, engine.reserves
      ensures Valid()
      ensures var e := UnderlyingInEffect(Config(), old(engine.reserves[0]), old(engine.reserves[1]),
                                          coinOut, amountIn, caller, now, amountOut);
              && r == e.result
              && engine.reserves[0] == e.r0 && engine.reserves[1] == e.r1
              && log == old(log) + e.events
    {
      if amountIn < 0 {
        return Err(NegativeAmountIn);
      }
      var coinIn := coins[0];
      log := log + [TransferFrom(coinIn, caller, address, amountIn)];
      var swapped :- engine.SwapExactIn(coinIn, coins[1], amountIn, now);
      // The source prints swapped / reserve1 here; a successful swap has
      // passed the price check, so reserve1 is not zero.
      r := RemoveExternalLiquidityOneCoin(coinOut, swapped, caller, amountOut);
    }

    /** `_swapPTExactIn`; `minted` is the external pool's answer to the deposit. */
    method SwapPtExactIn(coinIn: Coin, coinOut: Coin, amountIn: int, caller: Addr, now: int, minted: int)
      returns (r: Result<int>)
      requires Valid()
      modifies this, engine.reserves
      ensures Valid()
      ensures var e := PtInEffect(Config(), old(engine.reserves[0]), old(engine.reserves[1]),
                                  coinIn, coinOut, amountIn, caller, now, minted);
              && r == e.result
              && engine.reserves[0] == e.r0 && engine.reserves[1] == e.r1
              && log == old(log) + e.events
    {
      if amountIn < 0 {
        return Err(NegativeAmountIn);
      }
      var amountMetacoinIn :- AddExternalLiquidityFromOneCoin(coinIn, amountIn, caller, minted);
      var out :- engine.SwapExactIn(coins[1], coinOut, amountMetacoinIn, now);
      log := log + [Transfer(coinOut, caller, out)];
      return Ok(out);
    }

    /** `swapExactIn`: dispatch on the coin pair. */
    method SwapExactIn(coinIn: Coin, coinOut: Coin, amountIn: int, caller: Addr, now: int, reply: int)
      returns (r: Result<int>)
      requires Valid()
      modifies this, engine.reserves
      ensures Valid()
      ensures var e := SwapEffect(Config(), old(engine.reserves[0]), old(engine.reserves[1]),
                                  coinIn, coinOut, amountIn, caller, now, reply);
              && r == e.result
              && engine.reserves[0] == e.r0 && engine.reserves[1] == e.r1
              && log == old(log) + e.events
    {
      if coinIn == coinOut {
        return Err(SameCoin);
      }
      if coinIn == coins[1] {
        return Err(MetaCoinInNotImplemented);
      }
      if coinIn == coins[0] {
        r := SwapUnderlyingExactIn(coinOut, amountIn, caller, now, reply);
        return;
      }
      if coinIn in internalCoins {
        if coinOut != coins[0] {
          return Err(UnderlyingOutOnly);
        }
        r := SwapPtExactIn(coinIn, coinOut, amountIn, caller, now, reply);
        return;
      }
      return Err(InvalidCoinIn);
    }

    /** The transfers and external deposit of `_initializeLiquidity`. */
    method SeedFromCaller(uAmount: int, ptAmount: int, caller: Addr, minted: int)
      requires Valid()
      modifies this
      ensures Valid()
      ensures log == old(log) + SeedEvents(Config(), uAmount, ptAmount, caller, minted)
    {
      log := log + [TransferFrom(coins[0], caller, address, uAmount)];
      var ptAmountsIn := Filled(|internalCoins|, ptAmount);
      PullInternalCoins(ptAmountsIn, caller);
      log := log + [ExtAddLiquidity(ptAmountsIn, 0, minted)];
    }

    /** `_initializeLiquidity`; `minted` is the external pool's answer to the deposit. */
    method InitializeLiquidity(uAmount: int, caller: Addr, minted: int) returns (r: Result<int>)
      requires Valid()
      modifies this, engine.reserves, ledger
      ensures Valid()
      ensures var e := InitializeEffect(Config(), old(engine.reserves[0]), old(engine.reserves[1]),
                                        old(ledger.TotalSupply()), uAmount, caller, minted);
              && r == e.result
              && engine.reserves[0] == e.r0 && engine.reserves[1] == e.r1
              && log == old(log) + e.events
              && ledger.TotalSupply() == old(ledger.TotalSupply()) + e.shareDelta
              && ledger.BalanceOf(caller) == old(ledger.BalanceOf(caller)) + e.shareDelta
      ensures forall a :: a != caller ==> ledger.BalanceOf(a) == old(ledger.BalanceOf(a))
      ensures old(ledger.NonNegative()) && 0 <= uAmount ==> ledger.NonNegative()
    {
      if ledger.TotalSupply() != 0 {
        return Err(AlreadyInitialized);
      }
      var n := |internalCoins|;
      if n == 0 {
        return Err(ZeroDivision);
      }
      var ptAmount := Trunc(uAmount as real / n as real);
      var share := ptAmount;
      SeedFromCaller(uAmount, ptAmount, caller, minted);
      engine.reserves[0] := uAmount;
      engine.reserves[1] := minted;
      ledger.Mint(caller, share);
      return Ok(minted);
    }

    /** `addLiquidityFromShare`, over the external pool's balances, supply and answer. */
    method AddLiquidityFromShare(share: int, caller: Addr, extBalances: seq<int>, extSupply: int, minted: int)
      returns (r: Result<()>)
      requires Valid() && |extBalances| == |internalCoins|
      modifies this, engine.reserves, ledger
      ensures Valid()
      ensures var e := AddEffect(Config(), old(engine.reserves[0]), old(engine.reserves[1]),
                                 old(ledger.TotalSupply()), share, caller, extBalances, extSupply, minted);
              && r == e.result
              && engine.reserves[0] == e.r0 && engine.reserves[1] == e.r1
              && log == old(log) + e.events
              && ledger.TotalSupply() == old(ledger.TotalSupply()) + e.shareDelta
              && ledger.BalanceOf(caller) == old(ledger.BalanceOf(caller)) + e.shareDelta
      ensures forall a :: a != caller ==> ledger.BalanceOf(a) == old(ledger.BalanceOf(a))
      ensures old(ledger.NonNegative()) && 0 <= share ==> ledger.NonNegative()
    {
      var supply := ledger.TotalSupply();
      if supply == 0 {
        return Err(NoLiquidity);
      }
      ghost var e := AddEffect(Config(), engine.reserves[0], engine.reserves[1], supply, share, caller,
                               extBalances, extSupply, minted);
      var uAmountIn := ProRata(share, supply, engine.reserves[0]);
      log := log + [TransferFrom(coins[0], caller, address, uAmountIn)];
      var innerShare := ProRata(share, supply, engine.reserves[1]);
      var added := AddExternalLiquidityFromShare(innerShare, caller, extBalances, extSupply, minted);
      if added.Err? {
        return Err(added.error);
      }
      assert log == old(log) + e.events;
      engine.reserves[0] := engine.reserves[0] + uAmountIn;
      engine.reserves[1] := engine.reserves[1] + added.value;
      ledger.Mint(caller, share);
      return Ok(());
    }

    /** `removeLiquidityFromShare`. */
    method RemoveLiquidityFromShare(share: int, caller: Addr) returns (r: Result<int>)
      requires Valid()
      modifies this, engine.reserves, ledger
      ensures Valid()
      ensures var e := RemoveEffect(Config(), old(engine.reserves[0]), old(engine.reserves[1]),
                                    old(ledger.TotalSupply()), old(ledger.BalanceOf(caller)), share, caller);
              && r == e.result
              && engine.reserves[0] == e.r0 && engine.reserves[1] == e.r1
              && log == old(log) + e.events
              && ledger.TotalSupply() == old(ledger.TotalSupply()) + e.shareDelta
              && ledger.BalanceOf(caller) == old(ledger.BalanceOf(caller)) + e.shareDelta
      ensures forall a :: a != caller ==> ledger.BalanceOf(a) == old(ledger.BalanceOf(a))
      ensures old(ledger.NonNegative()) ==> ledger.NonNegative()
    {
      var supply := ledger.TotalSupply();
      if supply == 0 {
        return Err(NoLiquidity);
      }
      var uAmountOut := ProRata(share, supply, engine.reserves[0]);
      log := log + [Transfer(coins[0], caller, uAmountOut)];
      var innerShare := ProRata(share, supply, engine.reserves[1]);
      RemoveExternalLiquidityFromShare(innerShare, caller);
      engine.reserves[0] := engine.reserves[0] - uAmountOut;
      engine.reserves[1] := engine.reserves[1] - innerShare;
      var burned := ledger.Burn(caller, share);
      if burned.Err? {
        return Err(burned.error);
      }
      return Ok(share);
    }
  }

  /**
   * A client: adding `share` and removing it again restores the supply
   * exactly and the removal succeeds.
   */
  method AddThenRemove(pool: YieldMetaPool, share: int, caller: Addr, extBalances: seq<int>,
                       extSupply: int, minted: int)
    requires pool.Valid() && pool.ledger.NonNegative()
    requires |extBalances| == |pool.internalCoins|
    requires 0 < pool.ledger.TotalSupply() && 0 <= share
    requires ExtAmounts(extBalances, ProRata(share, pool.ledger.TotalSupply(), pool.engine.reserves[1]), extSupply).Ok?
    modifies pool, pool.engine.reserves, pool.ledger
    ensures pool.Valid()
    ensures pool.ledger.TotalSupply() == old(pool.ledger.TotalSupply())
  {
    var added := pool.AddLiquidityFromShare(share, caller, extBalances, extSupply, minted);
    assert added.Ok?;
    var removed := pool.RemoveLiquidityFromShare(share, caller);
    assert removed == Ok(share);
  }
}

=== FILE: types.dfy ===
/**
 * Shared value types of the meta-pool model: coin and holder identities,
 * the kinds of failure the Python code raises, and a Result wrapper that
 * replaces its exceptions.
 */
module Types {

  /** A token identity (an address string in the source). */
  type Coin = string

  /** An account identity (an address string in the source). */
  type Addr = string

  /** One constructor per exception the modelled code raises. */
  datatype Error =
    | SameCoin                 // "Same coin"
    | InvalidCoin              // "Invalid coin"
    | IndexOutOfRange          // IndexError from a list subscript
    | NotInList                // ValueError from list.index
    | InsufficientBalance      // "Insufficient balance"
    | NegativeTimeToMaturity   // "Time to maturity is negative"
    | ZeroDivision             // ZeroDivisionError
    | NegativeAmountOut        // "Negative amount out"
    | InvalidPrice             // "Invalid price after swap"
    | MetaCoinInNotImplemented // NotImplementedError("Meta coin In not implemented")
    | UnderlyingOutOnly        // NotImplementedError("Underlying Out is only implemented")
    | InvalidCoinIn            // "Invalid coin in"
    | NegativeAmountIn         // "Amount in must be positive"
    | AlreadyInitialized       // "Liquidity already initialized"
    | NoLiquidity              // "No liquidity in pool" (remove), and the longer
                               // "... Total supply zero is not supported yet" (add)

  datatype Result<+T> = Ok(value: T) | Err(error: Error) {
    predicate IsFailure() { Err? }

    function PropagateFailure<U>(): Result<U>
      requires Err?
    {
      Err(error)
    }

    function Extract(): T
      requires Ok?
    {
      value
    }
  }

  /** Pairwise distinct elements. */
  ghost predicate Distinct<T>(xs: seq<T>)
  {
    forall i, j :: 0 <= i < j < |xs| ==> xs[i] != xs[j]
  }
}
